=== FILE: README.md ===
# Shared Reusable Blocks — a Dafny model of the replication protocol

Shared Reusable Blocks is a WordPress multisite plugin. It copies reusable
blocks (posts of type `wp_block`) between sites arranged as hubs and
spokes:

- a site declares itself a hub through the `srb_site_is_hub` option;
- a site picks its hubs through the `srb_use_as_hubs` option, and each
  chosen hub then records the spoke in an `is_a_hub_for_site` blogmeta row;
- saving the selection pulls every block of every chosen hub into the
  spoke;
- creating a block on a hub pushes a copy to its spokes, and editing it
  rewrites the spoke's copy;
- every copy carries its provenance in two postmeta rows,
  `srb_from_site` (the hub) and `srb_from_post` (the post id on the hub).

The model is one immutable network state (`Store.State`). It holds:

- the `blogmeta` rows in table order;
- per site, the posts, the postmeta rows and the next id `wp_insert_post`
  will hand out;
- the current blog, and the stack that `switch_to_blog` pushes and
  `restore_current_blog` pops.

Every hook callback is a pure function from state to state. The modules
follow the plugin's files:

| module | file | contents |
|---|---|---|
| `Store` | (WordPress) | tables, `update_site_meta`, `delete_site_meta`, `wp_insert_post`, `add_post_meta`, `wp_update_post`, switch/restore |
| `Php` | (PHP) | the `$value` / `$creating` values, `absint`, `trim`, `strpos(...) === 0` |
| `Helpers` | inc/class-helpers.php | hub and spoke queries, block creation on a spoke |
| `Options` | inc/class-options.php | the two `updated_option` handlers for the topology |
| `CloneBlocks` | inc/class-clone-blocks.php | pull, push and edit |
| `Json` | (PHP arrays) | nested maps with read, assign (with autovivification) and `unset` |
| `RestApi` | inc/class-rest-api.php, inc/class-srb-rest-block-controller.php | the post-type args filter and the controller overrides |
| `Bootstrap` | shared-reusable-blocks.php plus the three `register_*` methods | `srb_is_rest`, `load_srb_files`, WordPress's priority dispatch |
| `Hooks` | all of them | whole requests: the callbacks of one action run in dispatch order |

Decisions the model makes explicit:

- **`update_site_meta` is update-or-add.** If rows for the (blog, key) pair
  exist, all of them get the new value. Otherwise one row is appended. Blog
  0 is a no-op, as WordPress rejects an empty object id. The doc comment at
  inc/class-options.php:276-278 says one row per (hub, spoke) pair. With this
  primitive a hub can hold only one `is_a_hub_for_site` row when `blogmeta`
  has unique keys (`Helpers.AtMostOneSpokePerHub`). So a second spoke that
  selects the same hub replaces the first one
  (`Options.SelectionReplacesPreviousSpoke`, `Hooks.SavingSelectionLinksHubs`).
- **Block creation is not an upsert.** Neither the pull nor the push looks
  provenance up before it inserts (inc/class-helpers.php:125-143), so
  repeating either adds another copy:
  - two creations give two replicas (`Helpers.CreateTwiceDuplicates`);
  - saving a selection and then a different one that keeps a hub copies
    that hub's blocks twice (`CloneBlocks.RepeatedPullDuplicates`).
- **Edit stops at the first spoke it cannot match.** Both early exits of
  the loop (inc/class-clone-blocks.php:252-255 and 279-282) restore the
  blog context and `return`, so later spokes are not processed
  (`CloneBlocks.EditStopsAtMissingReplica`,
  `CloneBlocks.EditStopsAtFirstMissing`).
- **`$creating` is a PHP value.**
  - The push guard is `1 !== absint( $creating )`; the edit guard is the
    strict `1 === $creating`.
  - WordPress passes a boolean. On a create, `true` therefore passes both
    guards, so the edit handler at priority 30 runs after the push at
    priority 20 (`CloneBlocks.BooleanCreatingPassesBothGuards`,
    `Hooks.CreatingOnHubReplicatesOnce`). It creates nothing, so the spoke
    still gains exactly one replica. Which replica it then rewrites is up
    to the lookup: not necessarily the fresh copy.
  - An integer 1 would make the edit stand aside
    (`Hooks.IntegerCreatingOnlyPushes`).
- **`switch_to_blog(0)`** keeps the current blog but still pushes onto the
  stack. `restore_current_blog` on an empty stack changes nothing. Every
  handler ends in the context it started in, on every path.
- **The HTTP fetch of a hub's blocks is a parameter.**
  `CloneBlocks.Fetch` maps a hub id to an optional block list. `None`
  stands for a body that is falsy or not an array; an empty list is falsy
  too. `is_admin()` is a boolean parameter.
- **Option values are pre-sanitised.** A `$value` array is a list of
  `key => id` pairs. Each id has already gone through `absint`, and the
  empty "please choose" entry is 0.
- **The REST parent controller is an input.** Its filtered response and
  its schema are uninterpreted `Json` values.

## Model

| member | source | states |
|---|---|---|
| Store.UpdateSiteMeta | inc/class-options.php:171 | `update_site_meta`: blog 0 is a no-op; otherwise the (blog, key) pair is present with the new value afterwards, every row of that pair holds it, rows of other pairs keep their multiplicity, and unique keys stay unique |
| Store.DeleteSiteMeta | inc/class-options.php:167 | `delete_site_meta`: blog 0 is a no-op; otherwise no row of the (blog, key) pair is left, rows of other pairs keep their multiplicity, and unique keys stay unique |
| Store.InsertPost | inc/class-helpers.php:135 | `wp_insert_post` hands out an id not yet used on a valid site, stores the post under it and leaves postmeta alone |
| Store.UpdatePost | inc/class-clone-blocks.php:286-293 | `wp_update_post` changes title, content and name of the given post only; status, type, other posts and postmeta are untouched |
| Store.SwitchRestoreBalanced | inc/class-clone-blocks.php:181-183 | a switch followed by a restore gives back the blog context from before, whatever the tables became in between |
| Helpers.FetchHubSites | inc/class-helpers.php:20-52 | the result holds exactly the blogs with a `srb_site_is_hub` row of value 1, and is empty exactly when no such row exists |
| Helpers.SiteIsAHub | inc/class-helpers.php:61-73 | a site is a hub if and only if it has a `srb_site_is_hub` row of value 1 |
| Helpers.GetSpokeSitesForHub | inc/class-helpers.php:83-116 | the result holds exactly the values of the hub's `is_a_hub_for_site` rows, and there are no more of them than rows |
| Helpers.AtMostOneSpokePerHub | inc/class-helpers.php:83-116 | with unique (blog, key) rows a hub lists at most one spoke |
| Helpers.CreateReusableBlockOnSpoke | inc/class-helpers.php:125-143 | one new post with the block's title, content and status and type `wp_block` under a fresh id, which is returned; only the current blog changes; the new id joins exactly the replica set of (hub, block id) |
| Helpers.NewReplica | inc/class-helpers.php:135-139 | the insert plus the two provenance rows add the new id to the replica set of (hub, block id) and to no other replica set |
| Helpers.CreateReusableBlockDataFromPostObject | inc/class-helpers.php:153-168 | the block data keeps the post's id, and the post built from it is the original post with an empty name and type `wp_block` |
| Helpers.PostObjectRoundTrip | inc/class-helpers.php:153-168 | building block data from a post and creating from it gives a `wp_block` post with the post's title, content and status and provenance pointing back at the post's id |
| Helpers.CreateTwiceDuplicates | inc/class-helpers.php:125-143 | creating the same block twice gives two distinct posts with the same provenance: the replica set grows by two |
| Options.UpdatedOptionSiteIsHub | inc/class-options.php:152-176 | another option changes nothing; absint 1 makes the current blog a hub; absint 0 makes it no hub; any larger value changes nothing; rows of other (blog, key) pairs, including every `is_a_hub_for_site` row, are kept |
| Options.RemoveSpokeSiteFromAllHubs | inc/class-options.php:323-342 | deletes exactly the `is_a_hub_for_site` rows whose value is the spoke; every other row keeps its multiplicity; no hub lists the spoke afterwards |
| Options.LinkHubs | inc/class-options.php:307-309 | every selected hub lists the spoke afterwards and its `is_a_hub_for_site` rows all hold the spoke; rows of unselected blogs and other keys are kept |
| Options.UpdatedOptionUseAsHubs | inc/class-options.php:285-311 | another option changes nothing; an empty selection removes the current blog from every hub and adds no row; a non-empty selection makes the current blog a spoke of exactly the selected hubs; only `is_a_hub_for_site` rows change, and links of other spokes to hubs outside the selection keep their multiplicity |
| Options.UnselectedHubsLoseSpoke | inc/class-options.php:304-309 | after the clean-up and the re-link, a hub that is not selected does not list the spoke |
| Options.SelectionReplacesPreviousSpoke | inc/class-options.php:276-309 | with unique keys, a selected hub lists the current blog as its one and only spoke, whichever spoke it had before |
| Options.AtLeastOneHubRegistered | inc/class-options.php:350-361 | true if and only if some blog has a `srb_site_is_hub` row of value 1 |
| CloneBlocks.DataToImport | inc/class-clone-blocks.php:95-116 | the keys of `$data_to_import`: each selected hub whose fetch answered with a non-empty array, without repeats; failed hubs are skipped and do not stop the others |
| CloneBlocks.CreateEach | inc/class-clone-blocks.php:123-126 | creating each block of one hub changes only the current blog and keeps every existing post; on a valid site block i gets a `wp_block` copy with its title, content and status at the i-th free id, tagged as a replica of (hub, block id), with no other new post and no provenance row lost |
| CloneBlocks.CreateEachReplicas | inc/class-clone-blocks.php:123-126 | a hub's replica set of origin o grows by the number of blocks with id o in its list; other hubs' sets stay as they were |
| CloneBlocks.ImportAll | inc/class-clone-blocks.php:121-138 | the import loop changes only the current blog and keeps every existing post; every new post copies a block of one of the listed hubs and carries that hub and block id as provenance, every such block has a new copy, and `nextId` advances by exactly the number of blocks returned |
| CloneBlocks.ImportAllReplicas | inc/class-clone-blocks.php:121-138 | with each hub listed once, a hub's replica sets grow by its own fetched blocks only |
| CloneBlocks.CloneHubBlocksToSpoke | inc/class-clone-blocks.php:70-140 | another option, a request outside the admin or an empty selection changes nothing; otherwise only the current blog's tables change, existing posts are kept, every new post copies a block of a selected hub that answered and is tagged as its replica, and every such block has a new copy |
| CloneBlocks.PullAddsReplicas | inc/class-clone-blocks.php:95-126 | every replica set of the current blog grows by exactly the number of matching blocks the selected, answering hub returned, regardless of replicas already there |
| CloneBlocks.RepeatedPullDuplicates | inc/class-clone-blocks.php:121-126 | saving a selection and then a different one adds the replicas of both pulls; a hub in both selections that answers both times gets each of its blocks copied twice |
| CloneBlocks.PushEach | inc/class-clone-blocks.php:180-184 | the push loop ends in its starting context with `blogmeta` untouched, keeps every existing post and provenance row on every blog; on each blog `nextId` advances once per time the blog is a switch target, and every new post is a copy of the block tagged as its replica |
| CloneBlocks.PushStepPosts | inc/class-clone-blocks.php:181-183 | one switch/create/restore round keeps the store valid, keeps every existing post and provenance row, advances `nextId` on the switch target only, by one, and adds only tagged replicas of the block |
| CloneBlocks.PushStepReplicas | inc/class-clone-blocks.php:181-183 | one round adds one replica of (hub, block id) on the switch target and nothing anywhere else |
| CloneBlocks.PushEachReplicas | inc/class-clone-blocks.php:180-184 | each blog gains one replica of (hub, block id) per time it is a switch target, and no replica of any other pair |
| CloneBlocks.PushBlockToSpoke | inc/class-clone-blocks.php:151-186 | nothing happens unless absint(`$creating`) is 1, the current blog is a hub and has a spoke; context and `blogmeta` are kept; old posts are kept; each new post has the source post's title, content and status and type `wp_block` and is a replica of (current hub, post ID); each blog's `nextId` advances once per listing as a spoke, and not at all when a guard fails |
| CloneBlocks.PushReplicas | inc/class-clone-blocks.php:154-184 | per blog and origin pair, the push adds one replica of (hub, post id) for each time the blog is a spoke target, and nothing else |
| CloneBlocks.PushGivesSpokeOneReplica | inc/class-clone-blocks.php:169-184 | with unique keys, the hub's spoke gains exactly one replica of (hub, post id) |
| CloneBlocks.FirstStage | inc/class-clone-blocks.php:239-250 | the first query returns exactly the posts with `srb_from_post` equal to the edited id |
| CloneBlocks.SecondStage | inc/class-clone-blocks.php:264-277 | (with the corrected lookup) the second query returns a candidate with `srb_from_site` equal to the hub, and returns nothing exactly when no candidate has that row |
| CloneBlocks.FindReplica | inc/class-clone-blocks.php:239-277 | the two-stage lookup returns a post carrying both provenance rows, and returns nothing exactly when no post carries both |
| CloneBlocks.FindReplicaMatchesProvenance | inc/class-clone-blocks.php:239-277 | (with the corrected lookup) the lookup's answer is a replica of (hub, origin), and it finds one whenever one exists |
| CloneBlocks.EditStep | inc/class-clone-blocks.php:233-296 | (with the corrected lookup) one round stops exactly when no replica (or id 0) is found; otherwise the found replica gets the source's title, content and name, every other post on every blog is unchanged, nothing changes shape, and the context is restored |
| CloneBlocks.EditEach | inc/class-clone-blocks.php:233-296 | the edit loop keeps context, `blogmeta`, post ids, postmeta and id counters; it changes only replicas of (hub, origin), only in title, content and name, and on each blog at most as many posts as the blog is visited, so other duplicate replicas stay stale |
| CloneBlocks.EditedTwice | inc/class-clone-blocks.php:233-296 | two edit rounds together still change only replicas of the pair, and only those three fields |
| CloneBlocks.EditStopsAtMissingReplica | inc/class-clone-blocks.php:252-282 | (with the corrected lookup) if the first spoke has no replica, the loop returns at once and later spokes are not processed |
| CloneBlocks.EditUpdatesReplica | inc/class-clone-blocks.php:279-293 | (with the corrected lookup) if the first spoke has a replica, that replica ends with the source's title, content and name |
| CloneBlocks.EditStepKeepsLookups | inc/class-clone-blocks.php:286-293 | a round of editing writes no postmeta, so every later spoke's lookup finds what it found before |
| CloneBlocks.EditEachFirstRound | inc/class-clone-blocks.php:233-296 | (with the corrected lookup) a spoke whose replica is found takes one round and the loop continues with the remaining spokes |
| CloneBlocks.EditReachesSpoke | inc/class-clone-blocks.php:233-296 | (with the corrected lookup) when spokes 0..k each hold a found replica, the k-th spoke's replica ends with the source's title, content and name |
| CloneBlocks.EditStopsAtFirstMissing | inc/class-clone-blocks.php:252-282 | (with the corrected lookup) when spoke k is the first without a found replica, the loop does exactly what it does over spokes 0..k-1: later spokes are not processed |
| CloneBlocks.EditBlockOnSpoke | inc/class-clone-blocks.php:202-298 | nothing happens if `$creating` is the integer 1, the blog is no hub or has no spoke; otherwise it never creates or deletes a post, keeps context and `blogmeta`, changes only title, content and name of replicas of (hub, post id), and changes at most one post per visit of a spoke |
| CloneBlocks.EditRewritesSpokeReplica | inc/class-clone-blocks.php:202-298 | (with the corrected lookup) when the guards pass and the hub's spokes up to the k-th each hold a found replica, the k-th spoke's replica is rewritten with the saved post's title, content and name |
| CloneBlocks.EditKeepsReplicaSets | inc/class-clone-blocks.php:202-298 | after the edit every replica set on every blog is what it was |
| CloneBlocks.BooleanCreatingPassesBothGuards | inc/class-clone-blocks.php:199-206 | `true` has absint 1 (the push guard, line 154) and is not the integer 1 (the edit guard), so both guards let it through |
| CloneBlocks.SecondStageAsWritten | inc/class-clone-blocks.php:262-277 | the second query as written: only the first candidate id is compared, so it answers exactly when that candidate has the hub's `srb_from_site` row |
| CloneBlocks.AsWrittenMissesSecondCandidate | inc/class-clone-blocks.php:262-277 | a spoke holding copies of post 7 from hubs 2 and 3: the query as written finds nothing for hub 3 though a replica exists, the pair-exact lookup finds it |
| Php.Absint | inc/class-options.php:160 | `absint` of `true` is 1 and of `false` 0; of an integer its absolute value; of null 0 |
| Php.IsEmptySelection | inc/class-options.php:295 | a non-array value or an empty array counts as no selection, so does the lone "please choose" entry; a selection whose key 0 names a real hub does not; a value that is not empty has an entry under key 0 |
| Php.Lookup | inc/class-options.php:295 | `$value[key]`: the value of a pair with that key if there is one, and nothing exactly when there is none |
| Php.LeadingRun | shared-reusable-blocks.php:72 | the length of the longest prefix made of trimmed characters |
| Php.TrailingStart | shared-reusable-blocks.php:72 | the start of the longest suffix made of trimmed characters |
| Php.Trim | shared-reusable-blocks.php:72 | `trim` never lengthens its input, its result neither starts nor ends with a trimmed character, and an input without trimmed characters comes back unchanged |
| Php.TrimKeepsMiddle | shared-reusable-blocks.php:72 | `trim` returns a middle slice of its input; everything cut off is a trimmed character, and the slice neither starts nor ends with one |
| Json.Set | inc/class-rest-api.php:84 | PHP assignment `$a[k1]...[kn] = v`: on a path that can be assigned (auto-creating arrays), reading it back gives v; every path apart from it reads as before and stays assignable |
| Json.Unset | inc/class-srb-rest-block-controller.php:49-50 | `unset( $a[k1]...[kn] )`: the path reads as absent; every path apart from it reads as before and stays assignable |
| RestApi.RegisterPostTypeArgs | inc/class-rest-api.php:69-88 | another post type or a blog that is no hub gets its args back unchanged; a hub's `wp_block` args get the SRB controller class; no other key changes |
| RestApi.RegisterPostTypeArgsIdempotent | inc/class-rest-api.php:69-88 | running the filter on its own output changes nothing |
| RestApi.CheckReadPermission | inc/class-srb-rest-block-controller.php:26-30 | every block can be read |
| RestApi.FilterResponseByContext | inc/class-srb-rest-block-controller.php:41-53 | the response has no `title.rendered` and no `content.rendered`; every entry apart from those two reads as the parent left it |
| RestApi.FilterResponseIdempotent | inc/class-srb-rest-block-controller.php:41-53 | filtering an already filtered response changes nothing |
| RestApi.GetItemSchema | inc/class-srb-rest-block-controller.php:62-82 | `title.raw` and `content.raw` have contexts `view` and `edit`; neither `rendered` property remains; everything else is the parent's schema |
| Bootstrap.SrbIsRest | shared-reusable-blocks.php:68-82 | true whenever `REST_REQUEST` is true, whenever the slash-trimmed `rest_route` starts with the prefix, and whenever the current path starts with the REST path; when neither of the first two holds it is exactly the path test |
| Bootstrap.RouteLeadingSlashesIgnored | shared-reusable-blocks.php:72 | leading `/` and `\` on `rest_route` do not change the verdict |
| Bootstrap.RouteUnderPrefixIsRest | shared-reusable-blocks.php:72-73 | a route made of any leading slashes, the prefix and anything after it (trailing slashes included) makes the request a REST request, whatever the URL |
| Bootstrap.LoadSrbFiles | shared-reusable-blocks.php:34-55 | the options and cloning hooks are always registered; the REST filter is registered if and only if the request is a REST request; nothing else is |
| Bootstrap.InsertHookAdds | inc/class-clone-blocks.php:47-53 | adding a callback to an action's list adds exactly that callback |
| Bootstrap.InsertHookSorted | inc/class-clone-blocks.php:47-53 | the list stays ordered by priority |
| Bootstrap.InsertHookStable | inc/class-clone-blocks.php:47-53 | at each priority, callbacks keep the order they were added in |
| Bootstrap.DispatchSorted | inc/class-clone-blocks.php:47-53 | an action runs exactly the callbacks registered on it, by ascending priority |
| Bootstrap.DispatchStable | inc/class-clone-blocks.php:47-53 | callbacks of equal priority run in registration order |
| Bootstrap.DispatchIgnoresRest | shared-reusable-blocks.php:46-53 | for every action but `register_post_type_args`, loading the REST classes does not change what runs |
| Bootstrap.UpdatedOptionOrder | inc/class-options.php:54-62 | `updated_option` runs the hub-flag handler, then the selection handler (both priority 20, in registration order), then the pull, registered at priority 30 in inc/class-clone-blocks.php:47 |
| Bootstrap.AfterInsertBlockOrder | inc/class-clone-blocks.php:50-53 | `rest_after_insert_wp_block` runs the push (20) before the edit (30) |
| Hooks.SaveOption | inc/class-clone-blocks.php:70-140 | saving an option keeps the blog context and changes no blog's tables but the current one |
| Hooks.SaveOptionRunsInDispatchOrder | inc/class-options.php:54-62 | what WordPress runs on `updated_option`, in its dispatch order, is the hub-flag handler, then the selection handler, then the pull |
| Hooks.SaveBlock | inc/class-clone-blocks.php:151-298 | saving a block keeps the blog context and `blogmeta` |
| Hooks.SaveBlockRunsInDispatchOrder | inc/class-clone-blocks.php:50-53 | what WordPress runs on `rest_after_insert_wp_block` is the push, then the edit |
| Hooks.SavingHubFlagOnlyFlags | inc/class-options.php:285-290 | saving the hub flag does what the flag handler does and nothing more |
| Hooks.SavingSelectionLinksHubs | inc/class-options.php:276-309 | after a non-empty selection is saved, each selected hub lists the current blog as its only spoke |
| Hooks.SavingSelectionPullsBlocks | inc/class-clone-blocks.php:95-126 | saving a non-empty selection in the admin adds, per origin pair, the matching blocks of answering hubs on top of the replicas already there; each of their blocks gets a new post copying its title, content and status, and every new post is such a copy, tagged with its hub and block id |
| Hooks.CreatingOnHubReplicatesOnce | inc/class-clone-blocks.php:199-206 | a create on a hub with a spoke (`$creating` is `true`) gives that spoke exactly one more replica, and the edit handler runs as well |
| Hooks.IntegerCreatingOnlyPushes | inc/class-clone-blocks.php:204-206 | with `$creating` the integer 1 the edit handler does nothing and only the push acts |
| Hooks.UpdatingOnHubCreatesNothing | inc/class-clone-blocks.php:154-298 | an update (`$creating` is `false`) creates no post and no postmeta on any blog, and every replica set stays as it was |
| Hooks.UpdatingOnHubRewritesReplica | inc/class-clone-blocks.php:202-298 | (with the corrected lookup) an update (`$creating` is `false`) on a hub whose spoke holds the replica the lookup finds rewrites it with the saved post's title, content and name |

## Left out

- The settings UI and capability checks (`register_setting`,
  `add_settings_field`, the two markup functions, `current_user_can`,
  inc/class-options.php:84-138, 184-267). They produce markup and check
  permissions; no table changes. The two `admin_init` registrations are
  kept only as dispatch entries.
- The HTTP request for a hub's blocks (`get_rest_url`, `wp_remote_get`,
  `sslverify`, `json_decode`, inc/class-clone-blocks.php:98-107). It is the
  `CloneBlocks.Fetch` oracle parameter, and `is_admin()` is a parameter.
- The `parse_blocks` loop (inc/class-clone-blocks.php:128-136) and the
  debug-log write (inc/class-clone-blocks.php:85). Neither changes state.
- Post slugs, dates, authors and failure of `wp_insert_post`. An insert
  always succeeds with the next id, and a post is modelled by title,
  content, name, status and type only.
- PHP coercions beyond what the guards need. `absint` of a string or float,
  loose `in_array`, and duplicate array keys are not modelled. Ids are
  natural numbers, option values are pre-sanitised pairs, and a numeric
  string is its integer.
- CloneBlocks.FindReplica: MySQL's casting of the quoted `IN (%s)` list is
  not modelled. The main model compares the hub against every first-stage
  id, the evidently intended behaviour (see Findings). What the query does
  as written is `CloneBlocks.SecondStageAsWritten`.
- CloneBlocks.SecondStage: states the corrected query. As written, only the
  first candidate is compared.
- CloneBlocks.FindReplicaMatchesProvenance: "finds one whenever one exists"
  holds for the corrected lookup only. As written, a replica that is not
  the first candidate is missed (`CloneBlocks.AsWrittenMissesSecondCandidate`).
- CloneBlocks.EditStep: stops exactly when the corrected lookup fails. As
  written, it also stops when the replica is not the first candidate.
- CloneBlocks.EditUpdatesReplica: holds for the corrected lookup; on the
  Findings input the code as written updates nothing.
- CloneBlocks.EditStopsAtMissingReplica: the stop condition is the
  corrected lookup's; the code as written stops on more inputs.
- CloneBlocks.EditEachFirstRound: the continuation condition is the
  corrected lookup's; with the query as written a spoke it finds can still
  end the loop.
- CloneBlocks.EditReachesSpoke: the hypothesis is the corrected lookup's;
  with the code as written fewer spokes are reached.
- CloneBlocks.EditStopsAtFirstMissing: the first missing spoke is the
  corrected lookup's.
- CloneBlocks.EditRewritesSpokeReplica: holds for the corrected lookup.
- Hooks.UpdatingOnHubRewritesReplica: holds for the corrected lookup.
- Bootstrap.RouteUnderPrefixIsRest: a prefix that itself begins or ends
  with `/` or `\` is not covered; `rest_get_url_prefix` returns `wp-json`
  and filters of it are not modelled.
- `get_var` returns whichever matching row MySQL returns first. The model
  picks the first matching postmeta row in table order.
- `wp_parse_url` failing or returning no path. The two paths are given as
  strings.
- `strpos` with an empty needle is taken to give 0, as in PHP 8.
- The parent `WP_REST_Posts_Controller`: its filtered output and schema are
  arbitrary `Json` inputs.
- WordPress's hook engine beyond priority order. Argument counts,
  removal of callbacks and recursion into the same action are not modelled.
- Concurrency. Every hook runs synchronously in one request, and the code
  has no locking.
- Json.Set: an assignment through a scalar or a `JList` intermediate (a
  PHP error for a scalar; for a list, a write into the list) leaves the
  value unchanged: `Json.Assignable` treats `JList` like a scalar. The contract promises the read-back only on
  assignable paths.
- Json.Unset: an unset through a scalar intermediate leaves the value
  unchanged. In PHP, unsetting below a string (say a string `title` in
  the response of inc/class-srb-rest-block-controller.php:49-50) raises
  the "Cannot unset string offsets" Error and ends the request. The model
  has no error path here: WordPress always builds `title` and `content`
  as arrays, and the contract speaks only of the result.
- The acceptance-test scaffolding under tests/ (browser scripts with no
  logic).

## Findings

| source | as written | input that shows it | evidently intended | confidence | as-written member | corrected member |
|---|---|---|---|---|---|---|
| inc/class-clone-blocks.php:262-277 | the first-stage ids are joined into one string `'5,6'` and bound as a single quoted `%s`, so `post_id IN ('5,6')` compares against the number MySQL casts that string to, 5: only the first candidate is checked | a spoke with post 5 (`srb_from_site` 2, `srb_from_post` 7) and post 6 (`srb_from_site` 3, `srb_from_post` 7); editing post 7 on hub 3 finds no replica and the loop returns, though post 6 is the replica | test every candidate id: find the post carrying both `srb_from_site` = hub and `srb_from_post` = edited id | medium, not executed | CloneBlocks.SecondStageAsWritten, CloneBlocks.AsWrittenMissesSecondCandidate | CloneBlocks.FindReplica, CloneBlocks.FindReplicaMatchesProvenance |

=== FILE: bootstrap.dfy ===
/** Plugin start-up: which hooks `load_srb_files` registers, whether the
    request is a REST request, and the order in which WordPress runs the
    callbacks registered on one hook. */
module Bootstrap {
  import opened Wrappers
  import Php

  /** The plugin's callbacks, one per hooked method. The two settings-screen
      callbacks are registered but their bodies are user interface. */
  datatype Callback =
    | RegisterHubOption | SiteIsHub | RegisterSpokeHubChoice | UseAsHubs
    | ClonePull | PushBlock | EditBlock | RestControllerArgs

  /** One `add_action` / `add_filter`: hook name, callback, priority. */
  datatype Hook = Hook(tag: string, callback: Callback, priority: int)

  /** WordPress's default priority. */
  const DefaultPriority: int := 10

  const UpdatedOption: string := "updated_option"
  const AfterInsertBlock: string := "rest_after_insert_wp_block"
  const PostTypeArgs: string := "register_post_type_args"

  /** `Options::register_actions`, in registration order. */
  const OptionsHooks: seq<Hook> := [
    Hook("admin_init", RegisterHubOption, DefaultPriority),
    Hook(UpdatedOption, SiteIsHub, 20),
    Hook("admin_init", RegisterSpokeHubChoice, DefaultPriority),
    Hook(UpdatedOption, UseAsHubs, 20)
  ]

  /** `Clone_Blocks::register_actions`, in registration order. */
  const CloneHooks: seq<Hook> := [
    Hook(UpdatedOption, ClonePull, 30),
    Hook(AfterInsertBlock, PushBlock, 20),
    Hook(AfterInsertBlock, EditBlock, 30)
  ]

  /** `Rest_API::register_filters`. */
  const RestHooks: seq<Hook> := [Hook(PostTypeArgs, RestControllerArgs, 99)]

  /** The characters `trim( $route, '\\/' )` strips. */
  const RouteTrimChars: set<char> := {'\\', '/'}

  /** `srb_is_rest`. `restRequest` is the `REST_REQUEST` constant (None when
      it is not defined), `restRoute` the `rest_route` query argument,
      `prefix` the REST URL prefix, and the two paths are the path of the
      current URL and of the site's REST URL. A request is a REST request
      when the constant says so, when the route (slashes trimmed) starts
      with the prefix, or when the current path starts with the REST path;
      otherwise it is not. */
  function SrbIsRest(restRequest: Option<bool>, restRoute: Option<string>, prefix: string,
                     currentPath: string, restPath: string): (r: bool)
    ensures restRequest == Some(true) ==> r
    ensures Php.StartsWith(currentPath, restPath) ==> r
    ensures restRoute.Some? && Php.StartsWith(Php.Trim(restRoute.value, RouteTrimChars), prefix) ==> r
    ensures restRoute.None? && restRequest != Some(true) ==> (r <==> Php.StartsWith(currentPath, restPath))
    ensures restRequest != Some(true) && !(restRoute.Some? && Php.StartsWith(Php.Trim(restRoute.value, RouteTrimChars), prefix)) ==>
      (r <==> Php.StartsWith(currentPath, restPath))
  {
    || restRequest == Some(true)
    || (restRoute.Some? && Php.StartsWith(Php.Trim(restRoute.value, RouteTrimChars), prefix))
    || Php.StartsWith(currentPath, restPath)
  }

  /** `ltrim` ignores any run of trimmable characters put in front. */
  lemma {:induction false} LeadingRunSkipsLead(lead: string, s: string, chars: set<char>)
    requires forall k :: 0 <= k < |lead| ==> lead[k] in chars
    ensures Php.LeadingRun(lead + s, chars) == |lead| + Php.LeadingRun(s, chars)
    ensures Php.TrimLeft(lead + s, chars) == Php.TrimLeft(s, chars)
    decreases |lead|
  {
    if |lead| > 0 {
      assert (lead + s)[0] == lead[0];
      assert (lead + s)[1..] == lead[1..] + s;
      LeadingRunSkipsLead(lead[1..], s, chars);
    } else {
      assert lead + s == s;
    }
    assert (lead + s)[|lead| + Php.LeadingRun(s, chars)..] == s[Php.LeadingRun(s, chars)..];
  }

  /** Leading slashes and backslashes on `rest_route` do not change the
      verdict. */
  lemma RouteLeadingSlashesIgnored(restRequest: Option<bool>, lead: string, route: string, prefix: string,
                                   currentPath: string, restPath: string)
    requires forall k :: 0 <= k < |lead| ==> lead[k] in RouteTrimChars
    ensures SrbIsRest(restRequest, Some(lead + route), prefix, currentPath, restPath)
         == SrbIsRest(restRequest, Some(route), prefix, currentPath, restPath)
  {
    LeadingRunSkipsLead(lead, route, RouteTrimChars);
    assert Php.Trim(lead + route, RouteTrimChars) == Php.Trim(route, RouteTrimChars);
  }

  /** A route that, after any leading slashes, starts with the prefix is a
      REST request, whatever follows the prefix (trailing slashes included)
      and whatever the URL path. The prefix itself must not begin or end
      with a slash, as `rest_get_url_prefix` does not. */
  lemma RouteUnderPrefixIsRest(restRequest: Option<bool>, lead: string, prefix: string, rest: string,
                               currentPath: string, restPath: string)
    requires forall k :: 0 <= k < |lead| ==> lead[k] in RouteTrimChars
    requires |prefix| > 0 && prefix[0] !in RouteTrimChars && prefix[|prefix| - 1] !in RouteTrimChars
    ensures SrbIsRest(restRequest, Some(lead + prefix + rest), prefix, currentPath, restPath)
  {
    var route := prefix + rest;
    assert lead + prefix + rest == lead + route;
    LeadingRunSkipsLead(lead, route, RouteTrimChars);
    assert route[0] == prefix[0];
    assert Php.LeadingRun(route, RouteTrimChars) == 0;
    assert Php.TrimLeft(route, RouteTrimChars) == route;
    var n := Php.TrailingStart(route, RouteTrimChars);
    assert route[|prefix| - 1] == prefix[|prefix| - 1];
    assert n >= |prefix|;
    assert Php.Trim(lead + route, RouteTrimChars) == route[..n];
    assert route[..n][..|prefix|] == prefix;
  }

  /** `load_srb_files`: options and cloning are always hooked up; the REST
      controller only for REST requests. */
  function LoadSrbFiles(isRest: bool): (hooks: seq<Hook>)
    ensures forall h :: h in OptionsHooks + CloneHooks ==> h in hooks
    ensures (exists h :: h in hooks && h.callback == RestControllerArgs) <==> isRest
    ensures forall h :: h in hooks ==> h in OptionsHooks + CloneHooks + RestHooks
  {
    if isRest then
      assert RestHooks[0] in OptionsHooks + CloneHooks + RestHooks;
      OptionsHooks + CloneHooks + RestHooks
    else OptionsHooks + CloneHooks
  }

  /** Every priority in `s` is at most the next one. */
  predicate ByPriority(s: seq<Hook>) {
    forall i, j :: 0 <= i < j < |s| ==> s[i].priority <= s[j].priority
  }

  /** The hooks of `s` at priority `p`, in order. */
  function AtPriority(s: seq<Hook>, p: int): seq<Hook> {
    if |s| == 0 then []
    else (if s[0].priority == p then [s[0]] else []) + AtPriority(s[1..], p)
  }

  /** Puts `h` after every hook of priority up to its own. */
  function InsertHook(s: seq<Hook>, h: Hook): seq<Hook> {
    if |s| == 0 then [h]
    else if h.priority < s[0].priority then [h] + s
    else [s[0]] + InsertHook(s[1..], h)
  }

  /** Inserting adds exactly `h`. */
  lemma {:induction false} InsertHookAdds(s: seq<Hook>, h: Hook)
    ensures var r := InsertHook(s, h);
      && |r| == |s| + 1 && multiset(r) == multiset(s) + multiset{h}
      && forall x :: x in r <==> x in s || x == h
  {
    if |s| > 0 && h.priority >= s[0].priority {
      InsertHookAdds(s[1..], h);
      assert s == [s[0]] + s[1..];
    }
  }

  /** Inserting into a sequence ordered by priority keeps it ordered. */
  lemma {:induction false} InsertHookSorted(s: seq<Hook>, h: Hook)
    requires ByPriority(s)
    ensures ByPriority(InsertHook(s, h))
  {
    if |s| > 0 {
      var r := InsertHook(s, h);
      if h.priority < s[0].priority {
        forall i, j | 0 <= i < j < |r| ensures r[i].priority <= r[j].priority {
          if i > 0 { assert r[i] == s[i - 1] && r[j] == s[j - 1]; }
        }
      } else {
        var rest := InsertHook(s[1..], h);
        InsertHookSorted(s[1..], h);
        InsertHookAdds(s[1..], h);
        forall i, j | 0 <= i < j < |r| ensures r[i].priority <= r[j].priority {
          assert r[j] == rest[j - 1];
          if i == 0 {
            assert rest[j - 1] in rest;
            if rest[j - 1] != h {
              var k :| 0 <= k < |s[1..]| && s[1..][k] == rest[j - 1];
              assert s[k + 1] == rest[j - 1];
            }
          } else {
            assert r[i] == rest[i - 1];
          }
        }
      }
    }
  }

  /** The order in which WordPress runs the callbacks of one hook: by
      ascending priority, and callbacks of equal priority in the order they
      were added. */
  function Dispatch(hooks: seq<Hook>, tag: string): seq<Hook> {
    if |hooks| == 0 then []
    else
      var last := hooks[|hooks| - 1];
      var sorted := Dispatch(hooks[..|hooks| - 1], tag);
      if last.tag != tag then sorted else InsertHook(sorted, last)
  }

  /** The callbacks dispatched for `tag` are exactly those registered on it,
      in ascending priority. */
  lemma {:induction false} DispatchSorted(hooks: seq<Hook>, tag: string)
    ensures ByPriority(Dispatch(hooks, tag))
    ensures forall h :: h in Dispatch(hooks, tag) <==> h in hooks && h.tag == tag
  {
    if |hooks| > 0 {
      var last := hooks[|hooks| - 1];
      var init := hooks[..|hooks| - 1];
      assert hooks == init + [last];
      DispatchSorted(init, tag);
      if last.tag == tag {
        InsertHookSorted(Dispatch(init, tag), last);
        InsertHookAdds(Dispatch(init, tag), last);
      }
    }
  }

  /** No hook of `s` has priority `p`. */
  lemma {:induction false} AtPriorityNone(s: seq<Hook>, p: int)
    requires forall i :: 0 <= i < |s| ==> s[i].priority != p
    ensures AtPriority(s, p) == []
  {
    if |s| > 0 {
      AtPriorityNone(s[1..], p);
    }
  }

  /** `AtPriority` of a concatenation. */
  lemma {:induction false} AtPriorityAppend(a: seq<Hook>, b: seq<Hook>, p: int)
    ensures AtPriority(a + b, p) == AtPriority(a, p) + AtPriority(b, p)
  {
    if |a| > 0 {
      assert (a + b)[0] == a[0];
      assert (a + b)[1..] == a[1..] + b;
      AtPriorityAppend(a[1..], b, p);
    } else {
      assert a + b == b;
    }
  }

  /** Inserting keeps every priority class in order, with `h` last in its
      own. */
  lemma {:induction false} InsertHookStable(s: seq<Hook>, h: Hook, p: int)
    requires ByPriority(s)
    ensures AtPriority(InsertHook(s, h), p) == AtPriority(s, p) + (if h.priority == p then [h] else [])
  {
    var tail: seq<Hook> := if h.priority == p then [h] else [];
    if |s| == 0 {
      assert [h][1..] == [];
    } else if h.priority < s[0].priority {
      assert ([h] + s)[1..] == s;
      if h.priority == p {
        AtPriorityNone(s, p);
      }
      assert AtPriority([h] + s, p) == tail + AtPriority(s, p);
    } else {
      var head: seq<Hook> := if s[0].priority == p then [s[0]] else [];
      var rest := InsertHook(s[1..], h);
      InsertHookStable(s[1..], h, p);
      assert ([s[0]] + rest)[1..] == rest;
      assert AtPriority([s[0]] + rest, p) == head + AtPriority(rest, p);
      assert AtPriority(s, p) == head + AtPriority(s[1..], p);
      assert head + (AtPriority(s[1..], p) + tail) == (head + AtPriority(s[1..], p)) + tail;
    }
  }

  /** The callbacks of `tag` at one priority run in the order they were
      added. */
  lemma {:induction false} DispatchStable(hooks: seq<Hook>, tag: string, p: int)
    ensures AtPriority(Dispatch(hooks, tag), p) == AtPriority(TaggedHooks(hooks, tag), p)
  {
    if |hooks| > 0 {
      var last := hooks[|hooks| - 1];
      var init := hooks[..|hooks| - 1];
      assert hooks == init + [last];
      DispatchStable(init, tag, p);
      TaggedAppend(init, last, tag);
      AtPriorityAppend(TaggedHooks(init, tag), if last.tag == tag then [last] else [], p);
      if last.tag == tag {
        DispatchSorted(init, tag);
        InsertHookStable(Dispatch(init, tag), last, p);
      }
    }
  }

  /** The hooks of `s` with tag `tag`, in order. */
  function TaggedHooks(s: seq<Hook>, tag: string): seq<Hook> {
    if |s| == 0 then []
    else (if s[0].tag == tag then [s[0]] else []) + TaggedHooks(s[1..], tag)
  }

  lemma {:induction false} TaggedAppend(s: seq<Hook>, h: Hook, tag: string)
    ensures TaggedHooks(s + [h], tag) == TaggedHooks(s, tag) + (if h.tag == tag then [h] else [])
  {
    if |s| > 0 {
      assert (s + [h])[1..] == s[1..] + [h];
      TaggedAppend(s[1..], h, tag);
    }
  }

  /** Dispatching after one more registration inserts it among the
      callbacks of its hook. */
  lemma DispatchSnoc(s: seq<Hook>, h: Hook, tag: string)
    ensures Dispatch(s + [h], tag) == if h.tag == tag then InsertHook(Dispatch(s, tag), h) else Dispatch(s, tag)
  {
    assert (s + [h])[..|s|] == s;
  }

  /** The callbacks of `s`, in order. */
  function CallbackNames(s: seq<Hook>): (r: seq<Callback>)
    ensures |r| == |s| && forall i :: 0 <= i < |s| ==> r[i] == s[i].callback
  {
    if |s| == 0 then [] else [s[0].callback] + CallbackNames(s[1..])
  }

  /** What `load_srb_files` registers on `tag`, in the order WordPress runs
      it. Both hooks the model runs only have the always-loaded part. */
  lemma DispatchIgnoresRest(isRest: bool, tag: string)
    requires tag != PostTypeArgs
    ensures Dispatch(LoadSrbFiles(isRest), tag) == Dispatch(Loaded, tag)
  {
    if isRest {
      DispatchSnoc(OptionsHooks + CloneHooks, RestHooks[0], tag);
    }
  }

  /** Saving an option runs the hub flag handler, then the spoke choice
      handler, then the pull, on every request. */
  lemma UpdatedOptionOrder(isRest: bool)
    ensures CallbackNames(Dispatch(LoadSrbFiles(isRest), UpdatedOption)) == [SiteIsHub, UseAsHubs, ClonePull]
  {
    DispatchIgnoresRest(isRest, UpdatedOption);
    DispatchUpdatedOption();
  }

  /** Saving a block through REST runs the push before the edit. */
  lemma AfterInsertBlockOrder(isRest: bool)
    ensures CallbackNames(Dispatch(LoadSrbFiles(isRest), AfterInsertBlock)) == [PushBlock, EditBlock]
  {
    DispatchIgnoresRest(isRest, AfterInsertBlock);
    DispatchAfterInsertBlock();
  }

  /** The always-loaded hooks. */
  const Loaded: seq<Hook> := OptionsHooks + CloneHooks

  /** Dispatching a prefix of the always-loaded hooks one registration
      longer. */
  lemma DispatchPrefix(i: nat, tag: string)
    requires i < |Loaded|
    ensures Dispatch(Loaded[..i + 1], tag)
         == if Loaded[i].tag == tag then InsertHook(Dispatch(Loaded[..i], tag), Loaded[i]) else Dispatch(Loaded[..i], tag)
  {
    DispatchSnoc(Loaded[..i], Loaded[i], tag);
    assert Loaded[..i + 1] == Loaded[..i] + [Loaded[i]];
  }

  /** A hook whose priority is at least every other one's runs last. */
  lemma {:induction false} InsertAtEnd(s: seq<Hook>, h: Hook)
    requires forall i :: 0 <= i < |s| ==> s[i].priority <= h.priority
    ensures InsertHook(s, h) == s + [h]
  {
    if |s| > 0 {
      InsertAtEnd(s[1..], h);
      assert s == [s[0]] + s[1..];
    }
  }

  /** The options class's two `updated_option` callbacks, in the order added. */
  lemma DispatchOptionsPart()
    ensures Dispatch(Loaded[..4], UpdatedOption) == [Loaded[1], Loaded[3]]
  {
    var t := UpdatedOption;
    assert Loaded[..0] == [];
    DispatchPrefix(0, t);
    DispatchPrefix(1, t);
    DispatchPrefix(2, t);
    DispatchPrefix(3, t);
    InsertAtEnd([Loaded[1]], Loaded[3]);
  }

  /** The pull, at priority 30, runs after both options callbacks. */
  lemma DispatchPullAfterOptions()
    ensures Dispatch(Loaded[..5], UpdatedOption) == [Loaded[1], Loaded[3], Loaded[4]]
  {
    DispatchOptionsPart();
    DispatchPrefix(4, UpdatedOption);
    InsertAtEnd([Loaded[1], Loaded[3]], Loaded[4]);
  }

  /** `Dispatch` of `updated_option` over the always-loaded hooks. */
  lemma DispatchUpdatedOption()
    ensures Dispatch(Loaded, UpdatedOption) == [Loaded[1], Loaded[3], Loaded[4]]
  {
    var t := UpdatedOption;
    DispatchPullAfterOptions();
    DispatchPrefix(5, t);
    DispatchPrefix(6, t);
    assert Loaded[..7] == Loaded;
  }

  /** The options class registers nothing on `rest_after_insert_wp_block`,
      and the pull is on another hook. */
  lemma DispatchNoBlockHooks()
    ensures Dispatch(Loaded[..5], AfterInsertBlock) == []
  {
    var t := AfterInsertBlock;
    assert Loaded[..0] == [];
    DispatchPrefix(0, t);
    DispatchPrefix(1, t);
    DispatchPrefix(2, t);
    DispatchPrefix(3, t);
    DispatchPrefix(4, t);
  }

  /** `Dispatch` of `rest_after_insert_wp_block` over the always-loaded hooks. */
  lemma DispatchAfterInsertBlock()
    ensures Dispatch(Loaded, AfterInsertBlock) == [Loaded[5], Loaded[6]]
  {
    var t := AfterInsertBlock;
    DispatchNoBlockHooks();
    DispatchPrefix(5, t);
    DispatchPrefix(6, t);
    InsertAtEnd([Loaded[5]], Loaded[6]);
    assert Loaded[..7] == Loaded;
  }
}

=== FILE: clone_blocks.dfy ===
/** The plugin's `Clone_Blocks` class: the pull on a spoke's hub selection,
    the push on a hub's block creation, and the in-place edit on a hub's
    block update. */
module CloneBlocks {
  import opened Wrappers
  import opened Store
  import opened Helpers
  import Options
  import Php
  import Seqs

  /** The hub's block collection as the HTTP fetch returns it: `None` when
      the decoded body is falsy or not an array. The request itself is not
      modelled; this function stands for it. */
  type Fetch = BlogId -> Option<seq<BlockJson>>

  /** A hub whose response passes `! $api_response || ! is_array(...)`. An
      empty array is falsy in PHP, so it is skipped too. */
  predicate Fetched(fetch: Fetch, hub: BlogId) {
    fetch(hub).Some? && |fetch(hub).value| > 0
  }

  /** The number of blocks in `items` whose id is `origin`. */
  function CountId(items: seq<BlockJson>, origin: PostId): nat {
    if |items| == 0 then 0
    else (if items[0].id == origin then 1 else 0) + CountId(items[1..], origin)
  }

  /** The posts `create_reusable_block_on_spoke` makes from `items`. */
  function PostsOf(items: seq<BlockJson>): set<Post> {
    set b | b in items :: BlockPost(b)
  }

  /** The posts the pull makes from the blocks of the hubs in `hubs`. */
  function PulledPosts(hubs: seq<BlogId>, fetch: Fetch): set<Post> {
    set h, b | h in hubs && fetch(h).Some? && b in fetch(h).value :: BlockPost(b)
  }

  /** Every post of `after` that `before` lacks is one of `posts`. */
  ghost predicate NewPostsAmong(before: Site, after: Site, posts: set<Post>) {
    forall p :: p in after.posts && p !in before.posts ==> after.posts[p] in posts
  }

  /** `after` holds a post that `before` lacks and that copies `b`. */
  ghost predicate CopiedIn(before: Site, after: Site, b: BlockJson) {
    exists p :: p in after.posts && p !in before.posts && after.posts[p] == BlockPost(b)
  }

  /** `site` holds the copy of `b` under `id`. */
  predicate HoldsCopy(site: Site, id: PostId, b: BlockJson) {
    id in site.posts && site.posts[id] == BlockPost(b)
  }

  /** `site` holds the copy of `b` under `id`, tagged as a replica of
      (hub, b.id). */
  predicate HoldsReplica(site: Site, id: PostId, b: BlockJson, hub: BlogId) {
    HoldsCopy(site, id, b) && id in ReplicaIds(site, hub, b.id)
  }

  /** Every post of `after` that `before` lacks copies a block `b` that a
      hub `h` of `from` returned, and carries the provenance (h, b.id). */
  ghost predicate PulledReplicasOnly(before: Site, after: Site, from: set<BlogId>, fetch: Fetch) {
    forall p :: p in after.posts && p !in before.posts ==>
      exists h, b :: h in from && fetch(h).Some? && b in fetch(h).value && HoldsReplica(after, p, b, h)
  }

  /** The number of blocks the hubs in `hubs` returned. */
  function PulledTotal(hubs: seq<BlogId>, fetch: Fetch): nat {
    if |hubs| == 0 then 0
    else (if fetch(hubs[0]).Some? then |fetch(hubs[0]).value| else 0) + PulledTotal(hubs[1..], fetch)
  }

  /** Every post of `before` is in `after`, unchanged. */
  ghost predicate KeepsPosts(before: Site, after: Site) {
    forall p :: p in before.posts ==> p in after.posts && after.posts[p] == before.posts[p]
  }

  /** The number of times `b` occurs in `s`. */
  function Occurrences(s: seq<BlogId>, b: BlogId): nat {
    if |s| == 0 then 0
    else (if s[0] == b then 1 else 0) + Occurrences(s[1..], b)
  }

  // ---------------------------------------------------------------------
  // pull: updated_option__clone_hub_blocks_to_spoke

  /** The keys of `$data_to_import`: each selected hub whose fetch succeeded,
      once, in the order of first selection. Assigning `$data_to_import[$h]`
      again for a repeated hub keeps its position; the fetch being a
      function of the hub, the value is the same. */
  function DataToImport(entries: seq<Php.Entry>, fetch: Fetch, acc: seq<BlogId>): (hubs: seq<BlogId>)
    requires Seqs.Distinct(acc)
    ensures Seqs.Distinct(hubs)
    ensures forall h :: h in hubs <==> h in acc || (h in Php.EntryValues(entries) && Fetched(fetch, h))
    decreases |entries|
  {
    if |entries| == 0 then acc
    else
      var h := entries[0].value;
      assert entries == [entries[0]] + entries[1..];
      assert Php.EntryValues(entries) == {h} + Php.EntryValues(entries[1..]);
      if Fetched(fetch, h) && h !in acc then DataToImport(entries[1..], fetch, acc + [h])
      else DataToImport(entries[1..], fetch, acc)
  }

  /** `after` is `before` with a replica of each of `items` from `hub`
      appended, in order, at the ids from `before.nextId` on: every old post
      and provenance row is kept, and there is no other new post. */
  ghost predicate CopiesAppended(before: Site, after: Site, items: seq<BlockJson>, hub: BlogId) {
    && KeepsPosts(before, after)
    && before.postmeta <= after.postmeta
    && after.nextId == before.nextId + |items|
    && (forall i :: 0 <= i < |items| ==> HoldsReplica(after, before.nextId + i, items[i], hub))
    && (forall p :: p in after.posts && p !in before.posts ==> before.nextId <= p)
    && NewPostsAmong(before, after, PostsOf(items))
  }

  /** The inner loop: `create_reusable_block_on_spoke( $block, $hub )` on
      the current blog for every block, in order. Only the current blog's
      tables change; on a valid site each block gets its copy at the next
      free id and nothing else is added. */
  function CreateEach(st: State, items: seq<BlockJson>, hub: BlogId): (r: State)
    ensures OnlySiteChanged(st, r, st.current)
    ensures ValidSite(SiteAt(st, st.current)) ==> ValidSite(SiteAt(r, st.current))
    ensures ValidSite(SiteAt(st, st.current)) ==> forall p :: p in SiteAt(st, st.current).posts ==>
      p in SiteAt(r, st.current).posts && SiteAt(r, st.current).posts[p] == SiteAt(st, st.current).posts[p]
    ensures ValidSite(SiteAt(st, st.current)) ==> CopiesAppended(SiteAt(st, st.current), SiteAt(r, st.current), items, hub)
    decreases |items|
  {
    if |items| == 0 then st
    else
      var next := CreateReusableBlockOnSpoke(st, items[0], hub).0;
      assert next.current == st.current;
      var r := CreateEach(next, items[1..], hub);
      if ValidSite(SiteAt(st, st.current)) then
        CreateEachStep(SiteAt(st, st.current), SiteAt(next, st.current), SiteAt(r, st.current), items, hub);
        r
      else r
  }

  /** One block created, then the rest. */
  lemma CreateEachStep(s0: Site, s1: Site, s2: Site, items: seq<BlockJson>, hub: BlogId)
    requires |items| > 0 && ValidSite(s0)
    requires s1.posts == s0.posts[s0.nextId := BlockPost(items[0])] && s1.nextId == s0.nextId + 1
    requires s0.postmeta <= s1.postmeta && s0.nextId in ReplicaIds(s1, hub, items[0].id)
    requires CopiesAppended(s1, s2, items[1..], hub)
    ensures CopiesAppended(s0, s2, items, hub)
  {
    Seqs.PrefixTrans(s0.postmeta, s1.postmeta, s2.postmeta);
    CreateEachStepReplicas(s0, s1, s2, items, hub);
    forall p | p in s2.posts && p !in s0.posts ensures s2.posts[p] in PostsOf(items) {
      if p in s1.posts {
        assert p == s0.nextId;
        assert items[0] in items;
      } else {
        var b :| b in items[1..] && s2.posts[p] == BlockPost(b);
        assert b in items;
      }
    }
  }

  /** The replicas of one block created, then the rest's, sit at the ids
      from `s0.nextId` on. */
  lemma CreateEachStepReplicas(s0: Site, s1: Site, s2: Site, items: seq<BlockJson>, hub: BlogId)
    requires |items| > 0
    requires s1.posts == s0.posts[s0.nextId := BlockPost(items[0])] && s1.nextId == s0.nextId + 1
    requires s0.nextId in ReplicaIds(s1, hub, items[0].id)
    requires CopiesAppended(s1, s2, items[1..], hub)
    ensures forall i :: 0 <= i < |items| ==> HoldsReplica(s2, s0.nextId + i, items[i], hub)
  {
    forall i | 0 <= i < |items| ensures HoldsReplica(s2, s0.nextId + i, items[i], hub) {
      if i == 0 {
        assert s0.nextId in s1.posts;
        ReplicaPersists(s1, s2, s0.nextId, hub, items[0].id);
      } else {
        var j := i - 1;
        assert items[1..][j] == items[i];
        assert HoldsReplica(s2, s1.nextId + j, items[1..][j], hub);
      }
    }
  }

  /** On a valid site, each appended block has a copy the site lacked. */
  lemma CopiesAppendedCopyEach(s0: Site, s2: Site, items: seq<BlockJson>, hub: BlogId)
    requires ValidSite(s0) && CopiesAppended(s0, s2, items, hub)
    ensures forall b :: b in items ==> CopiedIn(s0, s2, b)
  {
    forall b | b in items ensures CopiedIn(s0, s2, b) {
      var i :| 0 <= i < |items| && items[i] == b;
      var p := s0.nextId + i;
      assert p !in s0.posts;
      assert HoldsReplica(s2, p, items[i], hub);
    }
  }

  /** The current blog's replica set for (h, o) grows by the number of
      blocks with id `o` when `h` is the hub the blocks come from, and not
      at all otherwise. */
  lemma {:induction false} CreateEachReplicas(st: State, items: seq<BlockJson>, hub: BlogId, h: BlogId, o: PostId)
    requires ValidSite(SiteAt(st, st.current))
    ensures |ReplicaIds(SiteAt(CreateEach(st, items, hub), st.current), h, o)|
         == |ReplicaIds(SiteAt(st, st.current), h, o)| + (if h == hub then CountId(items, o) else 0)
    decreases |items|
  {
    if |items| > 0 {
      var next := CreateReusableBlockOnSpoke(st, items[0], hub).0;
      assert next.current == st.current;
      CreateEachReplicas(next, items[1..], hub, h, o);
    }
  }

  /** The outer loop over `$data_to_import`: each hub's blocks are created
      with that hub as their origin, and nothing else is created. */
  function ImportAll(st: State, hubs: seq<BlogId>, fetch: Fetch): (r: State)
    ensures OnlySiteChanged(st, r, st.current)
    ensures ValidSite(SiteAt(st, st.current)) ==> ValidSite(SiteAt(r, st.current))
    ensures ValidSite(SiteAt(st, st.current)) ==> forall p :: p in SiteAt(st, st.current).posts ==>
      p in SiteAt(r, st.current).posts && SiteAt(r, st.current).posts[p] == SiteAt(st, st.current).posts[p]
    ensures ValidSite(SiteAt(st, st.current)) ==>
      NewPostsAmong(SiteAt(st, st.current), SiteAt(r, st.current), PulledPosts(hubs, fetch))
    ensures ValidSite(SiteAt(st, st.current)) ==> forall h, b :: h in hubs && fetch(h).Some? && b in fetch(h).value ==>
      CopiedIn(SiteAt(st, st.current), SiteAt(r, st.current), b)
    ensures ValidSite(SiteAt(st, st.current)) ==>
      PulledReplicasOnly(SiteAt(st, st.current), SiteAt(r, st.current), Seqs.Elems(hubs), fetch)
    ensures ValidSite(SiteAt(st, st.current)) ==>
      && SiteAt(st, st.current).postmeta <= SiteAt(r, st.current).postmeta
      && SiteAt(r, st.current).nextId == SiteAt(st, st.current).nextId + PulledTotal(hubs, fetch)
    decreases |hubs|
  {
    if |hubs| == 0 then st
    else
      var items := if fetch(hubs[0]).Some? then fetch(hubs[0]).value else [];
      var mid := CreateEach(st, items, hubs[0]);
      var r := ImportAll(mid, hubs[1..], fetch);
      if ValidSite(SiteAt(st, st.current)) then
        CopiesAppendedCopyEach(SiteAt(st, st.current), SiteAt(mid, st.current), items, hubs[0]);
        ImportAllStep(SiteAt(st, st.current), SiteAt(mid, st.current), SiteAt(r, st.current), hubs, fetch);
        r
      else r
  }

  /** One hub's blocks, then the other hubs': the new posts are copies of
      blocks of the listed hubs, and each such block has a copy. */
  lemma ImportAllStep(s0: Site, s1: Site, s2: Site, hubs: seq<BlogId>, fetch: Fetch)
    requires |hubs| > 0 && ValidSite(s1)
    requires KeepsPosts(s0, s1) && KeepsPosts(s1, s2)
    requires var items := if fetch(hubs[0]).Some? then fetch(hubs[0]).value else [];
      && CopiesAppended(s0, s1, items, hubs[0])
      && forall b :: b in items ==> CopiedIn(s0, s1, b)
    requires NewPostsAmong(s1, s2, PulledPosts(hubs[1..], fetch))
    requires forall h, b :: h in hubs[1..] && fetch(h).Some? && b in fetch(h).value ==> CopiedIn(s1, s2, b)
    requires PulledReplicasOnly(s1, s2, Seqs.Elems(hubs[1..]), fetch) && s1.postmeta <= s2.postmeta
    ensures NewPostsAmong(s0, s2, PulledPosts(hubs, fetch))
    ensures forall h, b :: h in hubs && fetch(h).Some? && b in fetch(h).value ==> CopiedIn(s0, s2, b)
    ensures PulledReplicasOnly(s0, s2, Seqs.Elems(hubs), fetch)
  {
    ImportAllStepPosts(s0, s1, s2, hubs, fetch);
    ImportAllStepCopied(s0, s1, s2, hubs, fetch);
    ImportAllStepReplicas(s0, s1, s2, hubs, fetch);
  }

  /** The content half of ImportAllStep. */
  lemma ImportAllStepPosts(s0: Site, s1: Site, s2: Site, hubs: seq<BlogId>, fetch: Fetch)
    requires |hubs| > 0 && KeepsPosts(s1, s2)
    requires NewPostsAmong(s0, s1, PostsOf(if fetch(hubs[0]).Some? then fetch(hubs[0]).value else []))
    requires NewPostsAmong(s1, s2, PulledPosts(hubs[1..], fetch))
    ensures NewPostsAmong(s0, s2, PulledPosts(hubs, fetch))
  {
    var items := if fetch(hubs[0]).Some? then fetch(hubs[0]).value else [];
    forall p | p in s2.posts && p !in s0.posts ensures s2.posts[p] in PulledPosts(hubs, fetch) {
      if p in s1.posts {
        var b :| b in items && s1.posts[p] == BlockPost(b);
        assert hubs[0] in hubs && fetch(hubs[0]).Some? && b in fetch(hubs[0]).value;
      } else {
        var h, b :| h in hubs[1..] && fetch(h).Some? && b in fetch(h).value && s2.posts[p] == BlockPost(b);
        assert h in hubs;
      }
    }
  }

  /** The coverage half of ImportAllStep. */
  lemma ImportAllStepCopied(s0: Site, s1: Site, s2: Site, hubs: seq<BlogId>, fetch: Fetch)
    requires |hubs| > 0 && KeepsPosts(s0, s1) && KeepsPosts(s1, s2)
    requires forall b :: b in (if fetch(hubs[0]).Some? then fetch(hubs[0]).value else []) ==> CopiedIn(s0, s1, b)
    requires forall h, b :: h in hubs[1..] && fetch(h).Some? && b in fetch(h).value ==> CopiedIn(s1, s2, b)
    ensures forall h, b :: h in hubs && fetch(h).Some? && b in fetch(h).value ==> CopiedIn(s0, s2, b)
  {
    var items := if fetch(hubs[0]).Some? then fetch(hubs[0]).value else [];
    forall h, b | h in hubs && fetch(h).Some? && b in fetch(h).value ensures CopiedIn(s0, s2, b) {
      if h == hubs[0] {
        assert b in items && CopiedIn(s0, s1, b);
        var p :| p in s1.posts && p !in s0.posts && s1.posts[p] == BlockPost(b);
        assert p in s2.posts && s2.posts[p] == BlockPost(b);
      } else {
        assert h in hubs[1..];
        assert CopiedIn(s1, s2, b);
        var p :| p in s2.posts && p !in s1.posts && s2.posts[p] == BlockPost(b);
        assert p !in s0.posts;
      }
    }
  }

  /** The provenance half of ImportAllStep. */
  lemma ImportAllStepReplicas(s0: Site, s1: Site, s2: Site, hubs: seq<BlogId>, fetch: Fetch)
    requires |hubs| > 0 && ValidSite(s1) && KeepsPosts(s1, s2) && s1.postmeta <= s2.postmeta
    requires var items := if fetch(hubs[0]).Some? then fetch(hubs[0]).value else [];
      && s1.nextId == s0.nextId + |items|
      && (forall i :: 0 <= i < |items| ==> HoldsReplica(s1, s0.nextId + i, items[i], hubs[0]))
      && (forall q :: q in s1.posts && q !in s0.posts ==> s0.nextId <= q)
    requires PulledReplicasOnly(s1, s2, Seqs.Elems(hubs[1..]), fetch)
    ensures PulledReplicasOnly(s0, s2, Seqs.Elems(hubs), fetch)
  {
    forall p | p in s2.posts && p !in s0.posts
      ensures exists h, b :: h in Seqs.Elems(hubs) && fetch(h).Some? && b in fetch(h).value && HoldsReplica(s2, p, b, h)
    {
      var h, b;
      if p in s1.posts {
        var items := if fetch(hubs[0]).Some? then fetch(hubs[0]).value else [];
        assert s0.nextId <= p < s1.nextId;
        h, b := FirstHubReplica(s0, s1, s2, hubs, fetch, items, p);
      } else {
        h, b := LaterHubReplica(s1, s2, hubs, fetch, p);
      }
    }
  }

  /** A post the first hub's round created is a replica of one of its
      blocks, and stays one. */
  lemma FirstHubReplica(s0: Site, s1: Site, s2: Site, hubs: seq<BlogId>, fetch: Fetch, items: seq<BlockJson>, p: PostId)
    returns (h: BlogId, b: BlockJson)
    requires |hubs| > 0 && items == (if fetch(hubs[0]).Some? then fetch(hubs[0]).value else [])
    requires s0.nextId <= p < s0.nextId + |items|
    requires forall i :: 0 <= i < |items| ==> HoldsReplica(s1, s0.nextId + i, items[i], hubs[0])
    requires KeepsPosts(s1, s2) && s1.postmeta <= s2.postmeta
    ensures h in Seqs.Elems(hubs) && fetch(h).Some? && b in fetch(h).value && HoldsReplica(s2, p, b, h)
  {
    var i := p - s0.nextId;
    h, b := hubs[0], items[i];
    assert HoldsReplica(s1, s0.nextId + i, items[i], hubs[0]);
    ReplicaPersists(s1, s2, p, h, b.id);
    assert hubs[0] in hubs;
  }

  /** A post a later hub's round created is a replica of one of that
      hub's blocks. */
  lemma LaterHubReplica(s1: Site, s2: Site, hubs: seq<BlogId>, fetch: Fetch, p: PostId)
    returns (h: BlogId, b: BlockJson)
    requires |hubs| > 0 && PulledReplicasOnly(s1, s2, Seqs.Elems(hubs[1..]), fetch)
    requires p in s2.posts && p !in s1.posts
    ensures h in Seqs.Elems(hubs) && fetch(h).Some? && b in fetch(h).value && HoldsReplica(s2, p, b, h)
  {
    h, b :| h in Seqs.Elems(hubs[1..]) && fetch(h).Some? && b in fetch(h).value && HoldsReplica(s2, p, b, h);
    assert h in hubs[1..];
  }

  /** With each hub listed once, a hub's replica sets grow by its own
      fetched blocks only. */
  lemma {:induction false} ImportAllReplicas(st: State, hubs: seq<BlogId>, fetch: Fetch, h: BlogId, o: PostId)
    requires ValidSite(SiteAt(st, st.current))
    requires forall x :: x in hubs ==> fetch(x).Some?
    requires Seqs.Distinct(hubs)
    ensures |ReplicaIds(SiteAt(ImportAll(st, hubs, fetch), st.current), h, o)|
         == |ReplicaIds(SiteAt(st, st.current), h, o)| + (if h in hubs then CountId(fetch(h).value, o) else 0)
    decreases |hubs|
  {
    if |hubs| > 0 {
      var next := CreateEach(st, fetch(hubs[0]).value, hubs[0]);
      CreateEachReplicas(st, fetch(hubs[0]).value, hubs[0], h, o);
      Seqs.DistinctTail(hubs);
      ImportAllReplicas(next, hubs[1..], fetch, h, o);
    }
  }

  /** `updated_option__clone_hub_blocks_to_spoke`: after a save of the hub
      selection in the admin, every block of every selected hub whose fetch
      succeeded is created on the current blog with that hub's provenance.
      A foreign option, a request outside the admin, or an empty selection
      changes nothing; only the current blog's tables ever change. */
  function CloneHubBlocksToSpoke(st: State, option: string, oldValue: Php.Value, value: Php.Value,
                                 isAdmin: bool, fetch: Fetch): (r: State)
    ensures !Pulls(option, value, isAdmin) ==> r == st
    ensures OnlySiteChanged(st, r, st.current)
    ensures ValidSite(SiteAt(st, st.current)) ==> ValidSite(SiteAt(r, st.current))
    ensures ValidSite(SiteAt(st, st.current)) ==> forall p :: p in SiteAt(st, st.current).posts ==>
      p in SiteAt(r, st.current).posts && SiteAt(r, st.current).posts[p] == SiteAt(st, st.current).posts[p]
    ensures Pulls(option, value, isAdmin) && ValidSite(SiteAt(st, st.current)) ==>
      NewPostsAmong(SiteAt(st, st.current), SiteAt(r, st.current), SelectedPosts(value.entries, fetch))
    ensures Pulls(option, value, isAdmin) && ValidSite(SiteAt(st, st.current)) ==>
      forall h, b :: h in Php.EntryValues(value.entries) && Fetched(fetch, h) && b in fetch(h).value ==>
        CopiedIn(SiteAt(st, st.current), SiteAt(r, st.current), b)
    ensures Pulls(option, value, isAdmin) && ValidSite(SiteAt(st, st.current)) ==>
      PulledReplicasOnly(SiteAt(st, st.current), SiteAt(r, st.current), Php.EntryValues(value.entries), fetch)
  {
    if option != Options.UseAsHubsOption then st
    else if !isAdmin then st
    else if Php.IsEmptySelection(value) then st
    else
      var hubs := DataToImport(value.entries, fetch, []);
      assert PulledPosts(hubs, fetch) <= SelectedPosts(value.entries, fetch);
      var r := ImportAll(st, hubs, fetch);
      if ValidSite(SiteAt(st, st.current)) then
        PulledReplicasOnlyWider(SiteAt(st, st.current), SiteAt(r, st.current), Seqs.Elems(hubs),
                                Php.EntryValues(value.entries), fetch);
        r
      else r
  }

  /** Naming more hubs keeps the statement true. */
  lemma PulledReplicasOnlyWider(before: Site, after: Site, from: set<BlogId>, wider: set<BlogId>, fetch: Fetch)
    requires PulledReplicasOnly(before, after, from, fetch) && from <= wider
    ensures PulledReplicasOnly(before, after, wider, fetch)
  {
    forall p | p in after.posts && p !in before.posts
      ensures exists h, b :: h in wider && fetch(h).Some? && b in fetch(h).value && HoldsReplica(after, p, b, h)
    {
      var h, b :| h in from && fetch(h).Some? && b in fetch(h).value && HoldsReplica(after, p, b, h);
    }
  }

  /** The posts the pull makes from the blocks of the selected hubs that
      answered. */
  function SelectedPosts(entries: seq<Php.Entry>, fetch: Fetch): set<Post> {
    set h, b | h in Php.EntryValues(entries) && Fetched(fetch, h) && b in fetch(h).value :: BlockPost(b)
  }

  /** The pull never consults existing provenance: for every origin pair it
      adds one replica per matching block of each selected hub that
      answered, whatever replicas the current blog already holds. A hub whose
      fetch failed contributes nothing and does not stop the others. */
  lemma PullAddsReplicas(st: State, option: string, oldValue: Php.Value, value: Php.Value,
                         isAdmin: bool, fetch: Fetch, h: BlogId, o: PostId)
    requires ValidSite(SiteAt(st, st.current))
    ensures |ReplicaIds(SiteAt(CloneHubBlocksToSpoke(st, option, oldValue, value, isAdmin, fetch), st.current), h, o)|
         == |ReplicaIds(SiteAt(st, st.current), h, o)| + PulledCount(option, value, isAdmin, fetch, h, o)
  {
    if Pulls(option, value, isAdmin) {
      var hubs := DataToImport(value.entries, fetch, []);
      ImportAllReplicas(st, hubs, fetch, h, o);
    }
  }

  /** How many replicas of (h, o) one pull adds to the current blog: the
      blocks with id `o` that a selected, successfully fetched hub `h` lists. */
  function PulledCount(option: string, value: Php.Value, isAdmin: bool, fetch: Fetch, h: BlogId, o: PostId): nat {
    if Pulls(option, value, isAdmin) && h in Php.EntryValues(value.entries) && Fetched(fetch, h)
    then CountId(fetch(h).value, o) else 0
  }

  /** The three guards of the pull. */
  predicate Pulls(option: string, value: Php.Value, isAdmin: bool) {
    option == Options.UseAsHubsOption && isAdmin && !Php.IsEmptySelection(value)
  }

  /** Saving a selection and then a different one (WordPress fires
      `updated_option` only when the value changes) with the same hub
      responses adds the replicas of both pulls: a hub kept in both
      selections has each of its blocks copied twice. The pull is not an
      idempotent upsert. */
  lemma RepeatedPullDuplicates(st: State, option: string, oldValue: Php.Value, first: Php.Value, second: Php.Value,
                               isAdmin: bool, fetch: Fetch, h: BlogId, o: PostId)
    requires ValidSite(SiteAt(st, st.current))
    requires first != second
    ensures var once := CloneHubBlocksToSpoke(st, option, oldValue, first, isAdmin, fetch);
      var twice := CloneHubBlocksToSpoke(once, option, first, second, isAdmin, fetch);
      |ReplicaIds(SiteAt(twice, st.current), h, o)|
        == |ReplicaIds(SiteAt(st, st.current), h, o)|
           + PulledCount(option, first, isAdmin, fetch, h, o) + PulledCount(option, second, isAdmin, fetch, h, o)
    ensures Pulls(option, first, isAdmin) && Pulls(option, second, isAdmin) && Fetched(fetch, h)
            && h in Php.EntryValues(first.entries) && h in Php.EntryValues(second.entries) ==>
      var once := CloneHubBlocksToSpoke(st, option, oldValue, first, isAdmin, fetch);
      var twice := CloneHubBlocksToSpoke(once, option, first, second, isAdmin, fetch);
      |ReplicaIds(SiteAt(twice, st.current), h, o)|
        == |ReplicaIds(SiteAt(st, st.current), h, o)| + 2 * CountId(fetch(h).value, o)
  {
    var once := CloneHubBlocksToSpoke(st, option, oldValue, first, isAdmin, fetch);
    PullAddsReplicas(st, option, oldValue, first, isAdmin, fetch, h, o);
    PullAddsReplicas(once, option, first, second, isAdmin, fetch, h, o);
  }

  // ---------------------------------------------------------------------
  // push: rest_after_insert_wp_block__push_block_to_spoke

  /** The blogs `switch_to_blog` lands on for a list of spoke ids; an empty
      id (0) leaves the current blog current. */
  function Targets(spokes: seq<BlogId>, current: BlogId): (ts: seq<BlogId>)
    ensures |ts| == |spokes|
    ensures forall i :: 0 <= i < |spokes| ==> ts[i] == SwitchToBlog(State([], map[], current, []), spokes[i]).current
  {
    if |spokes| == 0 then []
    else [if spokes[0] == 0 then current else spokes[0]] + Targets(spokes[1..], current)
  }

  /** On one blog, `after` is `before` after `n` rounds of pushing `block`
      from `hub` that landed there: every old post and provenance row is
      kept, `nextId` has advanced by `n`, and every new post is a copy of
      the block tagged as its replica. */
  ghost predicate PushedCopies(before: Site, after: Site, block: BlockJson, hub: BlogId, n: nat) {
    && KeepsPosts(before, after)
    && before.postmeta <= after.postmeta
    && after.nextId == before.nextId + n
    && forall p :: p in after.posts && p !in before.posts ==> HoldsReplica(after, p, block, hub)
  }

  /** Two stretches of pushing compose. */
  lemma PushedCopiesCompose(s0: Site, s1: Site, s2: Site, block: BlockJson, hub: BlogId, n1: nat, n2: nat)
    requires PushedCopies(s0, s1, block, hub, n1) && PushedCopies(s1, s2, block, hub, n2)
    ensures PushedCopies(s0, s2, block, hub, n1 + n2)
  {
    Seqs.PrefixTrans(s0.postmeta, s1.postmeta, s2.postmeta);
    forall p | p in s2.posts && p !in s0.posts ensures HoldsReplica(s2, p, block, hub) {
      if p in s1.posts {
        ReplicaPersists(s1, s2, p, hub, block.id);
      }
    }
  }

  /** The push loop: for each spoke, `switch_to_blog`, create the block
      there with this hub as origin, `restore_current_blog`. The blog
      context ends as it began, posts and provenance rows that existed stay
      as they were, and every new post is a copy of the block tagged as its
      replica, one per time its blog is a switch target. */
  function PushEach(st: State, spokes: seq<BlogId>, block: BlockJson, hub: BlogId): (r: State)
    ensures r.blogmeta == st.blogmeta && r.current == st.current && r.switched == st.switched
    ensures Valid(st) ==> Valid(r)
    ensures Valid(st) ==> forall b, p :: p in SiteAt(st, b).posts ==>
      p in SiteAt(r, b).posts && SiteAt(r, b).posts[p] == SiteAt(st, b).posts[p]
    ensures Valid(st) ==> forall b, p :: p in SiteAt(r, b).posts && p !in SiteAt(st, b).posts ==>
      SiteAt(r, b).posts[p] == BlockPost(block)
    ensures Valid(st) ==> forall b ::
      PushedCopies(SiteAt(st, b), SiteAt(r, b), block, hub, Occurrences(Targets(spokes, st.current), b))
    decreases |spokes|
  {
    if |spokes| == 0 then st
    else
      var mid := PushStep(st, spokes[0], block, hub);
      PushStepPosts(st, spokes[0], block, hub);
      var r := PushEach(mid, spokes[1..], block, hub);
      if Valid(st) then
        var t := SwitchToBlog(st, spokes[0]).current;
        assert Targets(spokes, st.current) == [t] + Targets(spokes[1..], st.current);
        forall b ensures PushedCopies(SiteAt(st, b), SiteAt(r, b), block, hub, Occurrences(Targets(spokes, st.current), b)) {
          assert Occurrences(Targets(spokes, st.current), b)
              == (if t == b then 1 else 0) + Occurrences(Targets(spokes[1..], st.current), b);
          PushedCopiesCompose(SiteAt(st, b), SiteAt(mid, b), SiteAt(r, b), block, hub,
                              if t == b then 1 else 0, Occurrences(Targets(spokes[1..], mid.current), b));
        }
        r
      else r
  }

  /** On each blog, the push adds one replica of (hub, block.id) per time
      the blog is a switch target, and no replica of any other pair. */
  lemma {:induction false} PushEachReplicas(st: State, spokes: seq<BlogId>, block: BlockJson, hub: BlogId,
                                            b: BlogId, h: BlogId, o: PostId)
    requires Valid(st)
    ensures |ReplicaIds(SiteAt(PushEach(st, spokes, block, hub), b), h, o)|
         == |ReplicaIds(SiteAt(st, b), h, o)|
            + (if h == hub && o == block.id then Occurrences(Targets(spokes, st.current), b) else 0)
    decreases |spokes|
  {
    if |spokes| > 0 {
      var t := SwitchToBlog(st, spokes[0]).current;
      var restored := PushStep(st, spokes[0], block, hub);
      PushStepReplicas(st, spokes[0], block, hub, b, h, o);
      PushEachReplicas(restored, spokes[1..], block, hub, b, h, o);
      assert PushEach(st, spokes, block, hub) == PushEach(restored, spokes[1..], block, hub);
      assert Targets(spokes, st.current) == [t] + Targets(spokes[1..], st.current);
      assert Occurrences(Targets(spokes, st.current), b)
          == (if t == b then 1 else 0) + Occurrences(Targets(spokes[1..], st.current), b);
    }
  }

  /** One round of the push loop. */
  function PushStep(st: State, spoke: BlogId, block: BlockJson, hub: BlogId): (r: State)
    ensures r == st.(sites := r.sites)
  {
    var created := CreateReusableBlockOnSpoke(SwitchToBlog(st, spoke), block, hub).0;
    SwitchRestoreBalanced(st, spoke, created.blogmeta, created.sites);
    RestoreCurrentBlog(created)
  }

  /** One round keeps every existing post and adds, on a valid store, one
      tagged copy of the block on the switch target and nothing elsewhere. */
  lemma PushStepPosts(st: State, spoke: BlogId, block: BlockJson, hub: BlogId)
    ensures var r := PushStep(st, spoke, block, hub);
      && (Valid(st) ==> Valid(r))
      && (Valid(st) ==> forall b, p :: p in SiteAt(st, b).posts ==>
            p in SiteAt(r, b).posts && SiteAt(r, b).posts[p] == SiteAt(st, b).posts[p])
      && (Valid(st) ==> forall b, p :: p in SiteAt(r, b).posts && p !in SiteAt(st, b).posts ==>
            SiteAt(r, b).posts[p] == BlockPost(block))
      && (Valid(st) ==> forall b ::
            PushedCopies(SiteAt(st, b), SiteAt(r, b), block, hub, if b == SwitchToBlog(st, spoke).current then 1 else 0))
  {
    if Valid(st) {
      var switched := SwitchToBlog(st, spoke);
      var t := switched.current;
      SiteAtValid(switched, t);
      var created := CreateReusableBlockOnSpoke(switched, block, hub).0;
      var r := PushStep(st, spoke, block, hub);
      assert r.sites == st.sites[t := SiteAt(created, t)];
      assert PushedCopies(SiteAt(st, t), SiteAt(r, t), block, hub, 1);
    }
  }

  /** One round adds one replica of (hub, block.id) on the switch target
      and nothing anywhere else. */
  lemma PushStepReplicas(st: State, spoke: BlogId, block: BlockJson, hub: BlogId, b: BlogId, h: BlogId, o: PostId)
    requires Valid(st)
    ensures var t := SwitchToBlog(st, spoke).current;
      |ReplicaIds(SiteAt(PushStep(st, spoke, block, hub), b), h, o)|
        == |ReplicaIds(SiteAt(st, b), h, o)| + (if h == hub && o == block.id && b == t then 1 else 0)
  {
    var switched := SwitchToBlog(st, spoke);
    SiteAtValid(switched, switched.current);
    var created := CreateReusableBlockOnSpoke(switched, block, hub).0;
    assert SiteAt(PushStep(st, spoke, block, hub), b) == SiteAt(created, b);
    if b != switched.current {
      assert SiteAt(created, b) == SiteAt(st, b);
    }
  }

  /** The three guards of the push: `1 === absint( $creating )`, the
      current blog is a hub, and it has at least one spoke. */
  predicate Pushes(st: State, creating: Php.Value) {
    && Php.Absint(creating) == 1
    && SiteIsAHub(st.blogmeta, st.current)
    && |GetSpokeSitesForHub(st.blogmeta, st.current)| > 0
  }

  /** `rest_after_insert_wp_block__push_block_to_spoke`: when a block is
      created on a hub with spokes, each spoke gets a new copy of it. The
      blog context ends as it began and `blogmeta` is untouched. */
  function PushBlockToSpoke(st: State, post: WpPost, creating: Php.Value): (r: State)
    ensures !Pushes(st, creating) ==> r == st
    ensures r.blogmeta == st.blogmeta && r.current == st.current && r.switched == st.switched
    ensures Valid(st) ==> Valid(r)
    ensures Valid(st) ==> forall b, p :: p in SiteAt(st, b).posts ==>
      p in SiteAt(r, b).posts && SiteAt(r, b).posts[p] == SiteAt(st, b).posts[p]
    ensures Valid(st) ==> forall b, p :: p in SiteAt(r, b).posts && p !in SiteAt(st, b).posts ==>
      && SiteAt(r, b).posts[p].title == post.post.title
      && SiteAt(r, b).posts[p].content == post.post.content
      && SiteAt(r, b).posts[p].status == post.post.status
      && SiteAt(r, b).posts[p].postType == BlockPostType
    ensures Valid(st) ==> forall b, p :: p in SiteAt(r, b).posts && p !in SiteAt(st, b).posts ==>
      p in ReplicaIds(SiteAt(r, b), st.current, post.id)
    ensures Valid(st) ==> forall b :: SiteAt(r, b).nextId == SiteAt(st, b).nextId + PushedTo(st, creating, b)
  {
    if 1 != Php.Absint(creating) then st
    else
      var hub := st.current;
      if !SiteIsAHub(st.blogmeta, hub) then st
      else
        var spokes := GetSpokeSitesForHub(st.blogmeta, hub);
        if |spokes| == 0 then st
        else
          var block := CreateReusableBlockDataFromPostObject(post);
          var r := PushEach(st, spokes, block, hub);
          if Valid(st) then
            assert forall b :: PushedCopies(SiteAt(st, b), SiteAt(r, b), block, hub, Occurrences(Targets(spokes, st.current), b));
            r
          else r
  }

  /** How many times one push lands on blog `b`: once per listing of `b`
      as a spoke of the current hub, when the guards pass. */
  function PushedTo(st: State, creating: Php.Value, b: BlogId): nat {
    if Pushes(st, creating) then Occurrences(Targets(GetSpokeSitesForHub(st.blogmeta, st.current), st.current), b) else 0
  }

  /** Per blog and origin pair: the push adds one replica of
      (hub, post.ID) for each time the blog is a spoke of the current hub,
      and nothing else. */
  lemma PushReplicas(st: State, post: WpPost, creating: Php.Value, b: BlogId, h: BlogId, o: PostId)
    requires Valid(st)
    ensures |ReplicaIds(SiteAt(PushBlockToSpoke(st, post, creating), b), h, o)|
         == |ReplicaIds(SiteAt(st, b), h, o)|
            + (if Pushes(st, creating) && h == st.current && o == post.id
               then Occurrences(Targets(GetSpokeSitesForHub(st.blogmeta, st.current), st.current), b) else 0)
  {
    if Pushes(st, creating) {
      var spokes := GetSpokeSitesForHub(st.blogmeta, st.current);
      PushEachReplicas(st, spokes, CreateReusableBlockDataFromPostObject(post), st.current, b, h, o);
    }
  }

  /** On key-unique `blogmeta` a hub has a single spoke, and a push gives
      that spoke exactly one new replica of the created post. */
  lemma PushGivesSpokeOneReplica(st: State, post: WpPost, creating: Php.Value, s: BlogId)
    requires Valid(st) && UniqueKeys(st.blogmeta) && Pushes(st, creating)
    requires s != 0 && s in GetSpokeSitesForHub(st.blogmeta, st.current)
    ensures |ReplicaIds(SiteAt(PushBlockToSpoke(st, post, creating), s), st.current, post.id)|
         == |ReplicaIds(SiteAt(st, s), st.current, post.id)| + 1
  {
    var spokes := GetSpokeSitesForHub(st.blogmeta, st.current);
    AtMostOneSpokePerHub(st.blogmeta, st.current);
    assert spokes == [s];
    PushReplicas(st, post, creating, s, st.current, post.id);
    assert Targets(spokes, st.current) == [s];
    assert Occurrences([s], s) == 1;
  }

  // ---------------------------------------------------------------------
  // edit: rest_after_insert_wp_block__edit_block_on_spoke

  /** First query of the edit: the `post_id` of every postmeta row with
      `srb_from_post = origin`, in table order. */
  function FirstStage(postmeta: seq<PostMeta>, origin: PostId): (ids: seq<PostId>)
    ensures forall p :: p in ids <==> PostMeta(p, FromPostKey, origin) in postmeta
  {
    if |postmeta| == 0 then []
    else
      assert postmeta == [postmeta[0]] + postmeta[1..];
      (if postmeta[0].key == FromPostKey && postmeta[0].value == origin then [postmeta[0].post] else [])
      + FirstStage(postmeta[1..], origin)
  }

  /** Second query, `get_var`: the `post_id` of the first postmeta row with
      `srb_from_site = hub` whose post is one of the first stage's ids. */
  function SecondStage(postmeta: seq<PostMeta>, candidates: seq<PostId>, hub: BlogId): (r: Option<PostId>)
    ensures r.Some? ==> r.value in candidates && PostMeta(r.value, FromSiteKey, hub) in postmeta
    ensures r.None? <==> forall p :: p in candidates ==> PostMeta(p, FromSiteKey, hub) !in postmeta
  {
    if |postmeta| == 0 then None
    else if postmeta[0].key == FromSiteKey && postmeta[0].value == hub && postmeta[0].post in candidates then
      Some(postmeta[0].post)
    else
      var r := SecondStage(postmeta[1..], candidates, hub);
      assert forall p :: PostMeta(p, FromSiteKey, hub) in postmeta && PostMeta(p, FromSiteKey, hub) != postmeta[0]
                         ==> PostMeta(p, FromSiteKey, hub) in postmeta[1..] by {
        assert postmeta == [postmeta[0]] + postmeta[1..];
      }
      r
  }

  /** The two-stage provenance lookup on one site. It finds a post exactly
      when some post carries both `srb_from_post = origin` and
      `srb_from_site = hub`, and what it finds carries both. */
  function FindReplica(site: Site, hub: BlogId, origin: PostId): (r: Option<PostId>)
    ensures r.Some? ==> (PostMeta(r.value, FromSiteKey, hub) in site.postmeta
                         && PostMeta(r.value, FromPostKey, origin) in site.postmeta)
    ensures r.None? <==> forall p :: !(PostMeta(p, FromSiteKey, hub) in site.postmeta
                                       && PostMeta(p, FromPostKey, origin) in site.postmeta)
  {
    var ids := FirstStage(site.postmeta, origin);
    if |ids| == 0 then None
    else SecondStage(site.postmeta, ids, hub)
  }

  /** The lookup agrees with the replica sets: a found post that exists is
      a replica of (hub, origin), and when the site holds such a replica
      the lookup finds something. */
  lemma FindReplicaMatchesProvenance(site: Site, hub: BlogId, origin: PostId)
    ensures var r := FindReplica(site, hub, origin);
      && (r.Some? && r.value in site.posts ==> r.value in ReplicaIds(site, hub, origin))
      && (ReplicaIds(site, hub, origin) != {} ==> r.Some?)
  {
    var r := FindReplica(site, hub, origin);
    if ReplicaIds(site, hub, origin) != {} {
      var p :| p in ReplicaIds(site, hub, origin);
      assert PostMeta(p, FromSiteKey, hub) in site.postmeta && PostMeta(p, FromPostKey, origin) in site.postmeta;
    }
  }

  /** What `wp_update_post` writes to the replica: the edited post's title,
      content and name; status, type and provenance stay. */
  function Edited(before: Post, src: Post): Post {
    before.(title := src.title, content := src.content, name := src.name)
  }

  /** Each post of `r` on blog `b` is the one of `st`, or the edited form of
      a replica of (hub, origin). */
  ghost predicate EditedReplicasOnly(st: State, r: State, hub: BlogId, origin: PostId, src: Post) {
    forall b, p :: p in SiteAt(st, b).posts ==>
      && p in SiteAt(r, b).posts
      && (|| SiteAt(r, b).posts[p] == SiteAt(st, b).posts[p]
          || (p in ReplicaIds(SiteAt(st, b), hub, origin) && SiteAt(r, b).posts[p] == Edited(SiteAt(st, b).posts[p], src)))
  }

  /** The tables' shape is the same in `r` as in `st` on every blog: no post
      created or removed, no postmeta written, the counter unmoved. */
  ghost predicate SameShape(st: State, r: State) {
    forall b :: && SiteAt(r, b).posts.Keys == SiteAt(st, b).posts.Keys
                && SiteAt(r, b).postmeta == SiteAt(st, b).postmeta
                && SiteAt(r, b).nextId == SiteAt(st, b).nextId
  }

  /** One round of the edit loop: switch to the spoke, look the replica up,
      update it if found. `None` when the loop returns early, after its
      `restore_current_blog()`. */
  function EditStep(st: State, spoke: BlogId, src: WpPost, hub: BlogId): (r: Option<State>)
    ensures r.None? <==> FindReplica(SiteAt(st, SwitchToBlog(st, spoke).current), hub, src.id) in {None, Some(0)}
    ensures r.Some? ==> r.value.blogmeta == st.blogmeta && r.value.current == st.current && r.value.switched == st.switched
    ensures r.Some? ==> SameShape(st, r.value) && EditedReplicasOnly(st, r.value, hub, src.id, src.post)
    ensures r.Some? ==> var t := SwitchToBlog(st, spoke).current; var p := FindReplica(SiteAt(st, t), hub, src.id).value;
      p in SiteAt(st, t).posts ==> SiteAt(r.value, t).posts[p] == Edited(SiteAt(st, t).posts[p], src.post)
    ensures r.Some? ==> var t := SwitchToBlog(st, spoke).current; var p := FindReplica(SiteAt(st, t), hub, src.id).value;
      forall b, q :: q in SiteAt(st, b).posts && (b != t || q != p) ==> SiteAt(r.value, b).posts[q] == SiteAt(st, b).posts[q]
  {
    var switched := SwitchToBlog(st, spoke);
    var site := SiteAt(switched, switched.current);
    var ids := FirstStage(site.postmeta, src.id);
    if |ids| == 0 then None
    else
      var found := SecondStage(site.postmeta, ids, hub);
      if found.None? || found.value == 0 then None
      else
        var updated := WithSite(switched, switched.current,
                                UpdatePost(site, found.value, src.post.title, src.post.content, src.post.name));
        SwitchRestoreBalanced(st, spoke, updated.blogmeta, updated.sites);
        FindReplicaMatchesProvenance(site, hub, src.id);
        Some(RestoreCurrentBlog(updated))
  }

  /** The posts of blog `b` whose value differs between `st` and `r`. */
  ghost function ChangedIds(st: State, r: State, b: BlogId): set<PostId> {
    set q | q in SiteAt(st, b).posts && q in SiteAt(r, b).posts && SiteAt(r, b).posts[q] != SiteAt(st, b).posts[q]
  }

  /** The edit loop over the hub's spokes. It never creates a post; it
      changes only title, content and name of replicas of (hub, origin),
      and on each blog at most one post per visit; and at the first spoke
      without such a replica it stops, leaving the remaining spokes
      alone. */
  function EditEach(st: State, spokes: seq<BlogId>, src: WpPost, hub: BlogId): (r: State)
    ensures r.blogmeta == st.blogmeta && r.current == st.current && r.switched == st.switched
    ensures SameShape(st, r)
    ensures EditedReplicasOnly(st, r, hub, src.id, src.post)
    ensures forall b :: |ChangedIds(st, r, b)| <= Occurrences(Targets(spokes, st.current), b)
    decreases |spokes|
  {
    if |spokes| == 0 then
      NothingChanged(st);
      st
    else
      match EditStep(st, spokes[0], src, hub)
      case None =>
        SwitchRestoreBalanced(st, spokes[0], st.blogmeta, st.sites);
        NothingChanged(st);
        st
      case Some(next) =>
        var r := EditEach(next, spokes[1..], src, hub);
        EditedTwice(st, next, r, hub, src.id, src.post);
        var t := SwitchToBlog(st, spokes[0]).current;
        assert Targets(spokes, st.current) == [t] + Targets(spokes[1..], next.current);
        ChangedOneMore(st, next, r, t, FindReplica(SiteAt(st, t), hub, src.id).value, Targets(spokes[1..], next.current));
        r
  }

  /** A state compared with itself has no changed post. */
  lemma NothingChanged(st: State)
    ensures forall b :: ChangedIds(st, st, b) == {}
  {
  }

  /** A round that may change only post `p` of blog `t`, followed by rounds
      bounded by `rest`, is bounded by `[t] + rest`. */
  lemma ChangedOneMore(st: State, mid: State, r: State, t: BlogId, p: PostId, rest: seq<BlogId>)
    requires SameShape(st, mid) && SameShape(mid, r)
    requires forall b, q :: q in SiteAt(st, b).posts && (b != t || q != p) ==> SiteAt(mid, b).posts[q] == SiteAt(st, b).posts[q]
    requires forall b :: |ChangedIds(mid, r, b)| <= Occurrences(rest, b)
    ensures forall b :: |ChangedIds(st, r, b)| <= Occurrences([t] + rest, b)
  {
    forall b ensures |ChangedIds(st, r, b)| <= Occurrences([t] + rest, b) {
      var first := ChangedIds(st, mid, b);
      var one: set<PostId> := if b == t then {p} else {};
      assert first <= one;
      Seqs.SubsetCard(first, one);
      assert ChangedIds(st, r, b) <= first + ChangedIds(mid, r, b);
      Seqs.SubsetCard(ChangedIds(st, r, b), first + ChangedIds(mid, r, b));
      assert ([t] + rest)[1..] == rest;
    }
  }

  /** Two rounds of editing compose: editing an edited post again with the
      same source gives the same post. */
  lemma EditedTwice(st: State, mid: State, r: State, hub: BlogId, origin: PostId, src: Post)
    requires SameShape(st, mid) && SameShape(mid, r)
    requires EditedReplicasOnly(st, mid, hub, origin, src) && EditedReplicasOnly(mid, r, hub, origin, src)
    ensures SameShape(st, r) && EditedReplicasOnly(st, r, hub, origin, src)
  {
    forall b, p | p in SiteAt(st, b).posts
      ensures p in SiteAt(r, b).posts
      ensures || SiteAt(r, b).posts[p] == SiteAt(st, b).posts[p]
              || (p in ReplicaIds(SiteAt(st, b), hub, origin) && SiteAt(r, b).posts[p] == Edited(SiteAt(st, b).posts[p], src))
    {
      assert p in SiteAt(mid, b).posts;
      assert ReplicaIds(SiteAt(mid, b), hub, origin) == ReplicaIds(SiteAt(st, b), hub, origin);
    }
  }

  /** The edit loop stops at a spoke without a replica: when the first
      spoke has none, nothing changes, whatever the later spokes hold. */
  lemma EditStopsAtMissingReplica(st: State, spokes: seq<BlogId>, src: WpPost, hub: BlogId)
    requires |spokes| > 0
    requires FindReplica(SiteAt(st, SwitchToBlog(st, spokes[0]).current), hub, src.id) in {None, Some(0)}
    ensures EditEach(st, spokes, src, hub) == st
  {
  }

  /** When the first spoke holds a replica of (hub, src.ID), that replica
      ends with the source's title, content and name and keeps its status
      and type, whatever the rest of the loop does. */
  lemma EditUpdatesReplica(st: State, spokes: seq<BlogId>, src: WpPost, hub: BlogId)
    requires |spokes| > 0
    requires var t := SwitchToBlog(st, spokes[0]).current;
      var found := FindReplica(SiteAt(st, t), hub, src.id);
      found.Some? && found.value != 0 && found.value in SiteAt(st, t).posts
    ensures var t := SwitchToBlog(st, spokes[0]).current;
      var p := FindReplica(SiteAt(st, t), hub, src.id).value;
      && p in ReplicaIds(SiteAt(st, t), hub, src.id)
      && SiteAt(EditEach(st, spokes, src, hub), t).posts[p] == Edited(SiteAt(st, t).posts[p], src.post)
  {
    var t := SwitchToBlog(st, spokes[0]).current;
    var p := FindReplica(SiteAt(st, t), hub, src.id).value;
    FindReplicaMatchesProvenance(SiteAt(st, t), hub, src.id);
    var next := EditStep(st, spokes[0], src, hub).value;
    var r := EditEach(next, spokes[1..], src, hub);
    assert EditEach(st, spokes, src, hub) == r;
    assert SiteAt(next, t).posts[p] == Edited(SiteAt(st, t).posts[p], src.post);
    assert p in SiteAt(next, t).posts;
  }

  /** The edit loop's lookup finds a replica on the blog it switches to for
      `spoke`, so the round updates it and the loop goes on. */
  predicate ReplicaFound(st: State, spoke: BlogId, hub: BlogId, origin: PostId) {
    var found := FindReplica(SiteAt(st, SwitchToBlog(st, spoke).current), hub, origin);
    found.Some? && found.value != 0
  }

  /** A round of editing changes no postmeta, so the lookup on every spoke
      finds what it found before. */
  lemma EditStepKeepsLookups(st: State, spoke: BlogId, src: WpPost, hub: BlogId, other: BlogId)
    requires EditStep(st, spoke, src, hub).Some?
    ensures var next := EditStep(st, spoke, src, hub).value;
      && SwitchToBlog(next, other).current == SwitchToBlog(st, other).current
      && FindReplica(SiteAt(next, SwitchToBlog(next, other).current), hub, src.id)
         == FindReplica(SiteAt(st, SwitchToBlog(st, other).current), hub, src.id)
      && (ReplicaFound(next, other, hub, src.id) <==> ReplicaFound(st, other, hub, src.id))
  {
    var next := EditStep(st, spoke, src, hub).value;
    var t := SwitchToBlog(st, other).current;
    assert SiteAt(next, t).postmeta == SiteAt(st, t).postmeta;
  }

  /** A spoke whose replica is found costs one round and the loop goes on
      with the rest. */
  lemma EditEachFirstRound(st: State, spokes: seq<BlogId>, src: WpPost, hub: BlogId)
    requires |spokes| > 0 && ReplicaFound(st, spokes[0], hub, src.id)
    ensures EditStep(st, spokes[0], src, hub).Some?
    ensures EditEach(st, spokes, src, hub) == EditEach(EditStep(st, spokes[0], src, hub).value, spokes[1..], src, hub)
  {
  }

  /** When the first k spokes hold replicas, after the first round the
      remaining k - 1 still do, and the k-th is found exactly as before. */
  lemma FoundCarriesOver(st: State, spokes: seq<BlogId>, src: WpPost, hub: BlogId, k: nat)
    requires 0 < k < |spokes|
    requires forall i :: 0 <= i < k ==> ReplicaFound(st, spokes[i], hub, src.id)
    ensures EditStep(st, spokes[0], src, hub).Some?
    ensures var next := EditStep(st, spokes[0], src, hub).value;
      && (forall i :: 0 <= i < k - 1 ==> ReplicaFound(next, spokes[1..][i], hub, src.id))
      && (ReplicaFound(next, spokes[1..][k - 1], hub, src.id) <==> ReplicaFound(st, spokes[k], hub, src.id))
  {
    assert ReplicaFound(st, spokes[0], hub, src.id);
    var next := EditStep(st, spokes[0], src, hub).value;
    forall i | 0 <= i < k - 1
      ensures ReplicaFound(next, spokes[1..][i], hub, src.id)
    {
      assert spokes[1..][i] == spokes[i + 1];
      assert ReplicaFound(st, spokes[i + 1], hub, src.id);
      EditStepKeepsLookups(st, spokes[0], src, hub, spokes[i + 1]);
    }
    assert spokes[1..][k - 1] == spokes[k];
    EditStepKeepsLookups(st, spokes[0], src, hub, spokes[k]);
  }

  /** The loop reaches the k-th spoke when each spoke before it (and the
      k-th itself) holds a replica: that replica then ends with the source's
      title, content and name, whatever the later spokes hold. */
  lemma {:induction false} EditReachesSpoke(st: State, spokes: seq<BlogId>, src: WpPost, hub: BlogId, k: nat)
    requires k < |spokes|
    requires forall i :: 0 <= i < k ==> ReplicaFound(st, spokes[i], hub, src.id)
    requires ReplicaFound(st, spokes[k], hub, src.id)
    ensures var t := SwitchToBlog(st, spokes[k]).current;
      var p := FindReplica(SiteAt(st, t), hub, src.id).value;
      p in SiteAt(st, t).posts ==>
        && p in ReplicaIds(SiteAt(st, t), hub, src.id)
        && SiteAt(EditEach(st, spokes, src, hub), t).posts[p] == Edited(SiteAt(st, t).posts[p], src.post)
    decreases k
  {
    var t := SwitchToBlog(st, spokes[k]).current;
    var p := FindReplica(SiteAt(st, t), hub, src.id).value;
    assert ReplicaFound(st, spokes[0], hub, src.id);
    if k == 0 {
      if p in SiteAt(st, t).posts {
        EditUpdatesReplica(st, spokes, src, hub);
      }
    } else {
      var next := EditStep(st, spokes[0], src, hub).value;
      assert EditEach(st, spokes, src, hub) == EditEach(next, spokes[1..], src, hub);
      FoundCarriesOver(st, spokes, src, hub, k);
      assert spokes[1..][k - 1] == spokes[k];
      EditStepKeepsLookups(st, spokes[0], src, hub, spokes[k]);
      EditReachesSpoke(next, spokes[1..], src, hub, k - 1);
      if p in SiteAt(st, t).posts {
        FindReplicaMatchesProvenance(SiteAt(st, t), hub, src.id);
        EditStepPost(st, spokes[0], src, hub, t, p);
      }
    }
  }

  /** A post a round leaves in place either keeps its value or takes the
      edited form, so a later edit with the same source gives the edited
      form of its original value; a round keeps every replica set. */
  lemma EditStepPost(st: State, spoke: BlogId, src: WpPost, hub: BlogId, b: BlogId, q: PostId)
    requires EditStep(st, spoke, src, hub).Some? && q in SiteAt(st, b).posts
    ensures var next := EditStep(st, spoke, src, hub).value;
      && q in SiteAt(next, b).posts
      && Edited(SiteAt(next, b).posts[q], src.post) == Edited(SiteAt(st, b).posts[q], src.post)
      && ReplicaIds(SiteAt(next, b), hub, src.id) == ReplicaIds(SiteAt(st, b), hub, src.id)
  {
  }

  /** The loop stops at the first spoke without a replica: running it over
      all spokes is running it over the ones before that spoke only. */
  lemma {:induction false} EditStopsAtFirstMissing(st: State, spokes: seq<BlogId>, src: WpPost, hub: BlogId, k: nat)
    requires k < |spokes|
    requires forall i :: 0 <= i < k ==> ReplicaFound(st, spokes[i], hub, src.id)
    requires !ReplicaFound(st, spokes[k], hub, src.id)
    ensures EditEach(st, spokes, src, hub) == EditEach(st, spokes[..k], src, hub)
    decreases k
  {
    if k == 0 {
      EditStopsAtMissingReplica(st, spokes, src, hub);
      assert spokes[..0] == [];
    } else {
      var head, tail := spokes[..k], spokes[1..];
      assert head[0] == spokes[0] && head[1..] == tail[..k - 1];
      assert ReplicaFound(st, spokes[0], hub, src.id);
      EditEachFirstRound(st, spokes, src, hub);
      EditEachFirstRound(st, head, src, hub);
      var next := EditStep(st, spokes[0], src, hub).value;
      FoundCarriesOver(st, spokes, src, hub, k);
      EditStopsAtFirstMissing(next, tail, src, hub, k - 1);
      calc {
        EditEach(st, spokes, src, hub);
        EditEach(next, tail, src, hub);
        EditEach(next, tail[..k - 1], src, hub);
        EditEach(next, head[1..], src, hub);
        EditEach(st, head, src, hub);
      }
    }
  }

  /** The three guards of the edit: `$creating` is not the integer 1, the
      current blog is a hub, and it has at least one spoke. */
  predicate EditGuardsPass(st: State, creating: Php.Value) {
    && creating != Php.Int(1)
    && SiteIsAHub(st.blogmeta, st.current)
    && |GetSpokeSitesForHub(st.blogmeta, st.current)| > 0
  }

  /** `rest_after_insert_wp_block__edit_block_on_spoke`: unless `$creating`
      is the integer 1 (`1 === $creating`), a hub with spokes walks them and
      updates each spoke's replica of the post in place. It never creates a
      post, touches only title, content and name of replicas of
      (hub, post.ID), changes at most one post per visit of a blog, and ends
      in the blog context it began in. */
  function EditBlockOnSpoke(st: State, post: WpPost, creating: Php.Value): (r: State)
    ensures !EditGuardsPass(st, creating) ==> r == st
    ensures r.blogmeta == st.blogmeta && r.current == st.current && r.switched == st.switched
    ensures SameShape(st, r)
    ensures EditedReplicasOnly(st, r, st.current, post.id, post.post)
    ensures forall b :: |ChangedIds(st, r, b)| <= Occurrences(Targets(GetSpokeSitesForHub(st.blogmeta, st.current), st.current), b)
  {
    NothingChanged(st);
    if creating == Php.Int(1) then st
    else
      var hub := st.current;
      if !SiteIsAHub(st.blogmeta, hub) then st
      else
        var spokes := GetSpokeSitesForHub(st.blogmeta, hub);
        if |spokes| == 0 then st
        else EditEach(st, spokes, post, hub)
  }

  /** When the guards pass and the hub's spokes up to the k-th each hold a
      replica the lookup finds, the k-th spoke's replica is rewritten with
      the saved post's title, content and name. */
  lemma EditRewritesSpokeReplica(st: State, post: WpPost, creating: Php.Value, k: nat)
    requires EditGuardsPass(st, creating)
    requires var spokes := GetSpokeSitesForHub(st.blogmeta, st.current);
      && k < |spokes|
      && (forall i :: 0 <= i < k ==> ReplicaFound(st, spokes[i], st.current, post.id))
      && ReplicaFound(st, spokes[k], st.current, post.id)
    ensures var spokes := GetSpokeSitesForHub(st.blogmeta, st.current);
      var t := SwitchToBlog(st, spokes[k]).current;
      var p := FindReplica(SiteAt(st, t), st.current, post.id).value;
      p in SiteAt(st, t).posts ==>
        SiteAt(EditBlockOnSpoke(st, post, creating), t).posts[p] == Edited(SiteAt(st, t).posts[p], post.post)
  {
    EditReachesSpoke(st, GetSpokeSitesForHub(st.blogmeta, st.current), post, st.current, k);
  }

  /** The edit creates and deletes nothing: every replica set on every
      blog is the same afterwards. */
  lemma EditKeepsReplicaSets(st: State, post: WpPost, creating: Php.Value, b: BlogId, h: BlogId, o: PostId)
    ensures ReplicaIds(SiteAt(EditBlockOnSpoke(st, post, creating), b), h, o) == ReplicaIds(SiteAt(st, b), h, o)
  {
    var r := EditBlockOnSpoke(st, post, creating);
    assert SiteAt(r, b).posts.Keys == SiteAt(st, b).posts.Keys && SiteAt(r, b).postmeta == SiteAt(st, b).postmeta;
  }

  /** WordPress passes `$creating` as a boolean. `absint( true )` is 1 and
      `true` is not the integer 1, so on a create both handlers pass their
      first guard: the edit handler runs right after the push. */
  lemma BooleanCreatingPassesBothGuards()
    ensures Php.Absint(Php.Bool(true)) == 1
    ensures Php.Bool(true) != Php.Int(1)
  {
  }

  // ---------------------------------------------------------------------
  // the second stage as written

  /** The second query as the source issues it: the ids are joined into one
      string and bound with `%s`, giving `post_id IN ('5,6')`. MySQL casts
      that string to its leading number, so only the first candidate is
      compared. */
  function SecondStageAsWritten(postmeta: seq<PostMeta>, candidates: seq<PostId>, hub: BlogId): (r: Option<PostId>)
    ensures r.Some? ==> |candidates| > 0 && r.value == candidates[0] && PostMeta(r.value, FromSiteKey, hub) in postmeta
    ensures r.None? <==> |candidates| == 0 || PostMeta(candidates[0], FromSiteKey, hub) !in postmeta
  {
    if |candidates| == 0 then None
    else SecondStage(postmeta, [candidates[0]], hub)
  }

  /** A spoke holding replicas of post 7 from hub 2 (post 5) and from hub 3
      (post 6): for an edit of post 7 on hub 3 the query as written finds
      nothing, while the pair-exact lookup finds post 6. */
  lemma AsWrittenMissesSecondCandidate()
    ensures var site := Site(map[5 := Post("a", "x", "", "publish", BlockPostType),
                                 6 := Post("b", "y", "", "publish", BlockPostType)],
                             [PostMeta(5, FromSiteKey, 2), PostMeta(5, FromPostKey, 7),
                              PostMeta(6, FromSiteKey, 3), PostMeta(6, FromPostKey, 7)], 7);
      && FirstStage(site.postmeta, 7) == [5, 6]
      && ReplicaIds(site, 3, 7) == {6}
      && SecondStageAsWritten(site.postmeta, [5, 6], 3) == None
      && SecondStage(site.postmeta, [5, 6], 3) == Some(6)
  {
    var site := Site(map[5 := Post("a", "x", "", "publish", BlockPostType),
                         6 := Post("b", "y", "", "publish", BlockPostType)],
                     [PostMeta(5, FromSiteKey, 2), PostMeta(5, FromPostKey, 7),
                      PostMeta(6, FromSiteKey, 3), PostMeta(6, FromPostKey, 7)], 7);
    assert FromSiteKey != FromPostKey by { assert FromSiteKey[9] != FromPostKey[9]; }
    var pm := site.postmeta;
    assert FirstStage(pm[3..], 7) == [6] + FirstStage(pm[4..], 7);
    assert FirstStage(pm[2..], 7) == FirstStage(pm[3..], 7);
    assert FirstStage(pm[1..], 7) == [5] + FirstStage(pm[2..], 7);
    assert PostMeta(5, FromSiteKey, 3) !in pm;
    assert PostMeta(6, FromSiteKey, 3) in pm;
  }
}

=== FILE: helpers.dfy ===
/** The plugin's `Helpers` class: the topology queries over `blogmeta` and
    the one primitive that writes a replica on the current blog. */
module Helpers {
  import opened Store

  /** A block as a hub's REST collection delivers it, and as
      `create_reusable_block_data_from_post_object` builds it:
      `{ id, status, title: { raw }, content: { raw } }`. */
  datatype BlockJson = BlockJson(id: PostId, status: string, titleRaw: string, contentRaw: string)

  /** The `WP_Post` object a hook receives: its `ID` and its columns. */
  datatype WpPost = WpPost(id: PostId, post: Post)

  /** `fetch_hub_sites`: the blogs, in table order, that have a
      `srb_site_is_hub` row with value 1; empty when no row matches. */
  function FetchHubSites(rows: seq<MetaRow>): (hubs: seq<BlogId>)
    ensures forall b :: b in hubs <==> MetaRow(b, HubFlagKey, 1) in rows
    ensures |hubs| == 0 <==> forall row :: row in rows ==> !(row.key == HubFlagKey && row.value == 1)
  {
    if |rows| == 0 then []
    else
      assert rows == [rows[0]] + rows[1..];
      (if rows[0].key == HubFlagKey && rows[0].value == 1 then [rows[0].blog] else [])
      + FetchHubSites(rows[1..])
  }

  /** `site_is_a_hub`: membership of the (already `absint`ed) id in
      `fetch_hub_sites`. */
  function SiteIsAHub(rows: seq<MetaRow>, site: BlogId): (r: bool)
    ensures r <==> MetaRow(site, HubFlagKey, 1) in rows
  {
    site in FetchHubSites(rows)
  }

  /** `get_spoke_sites_for_hub`: the value of every `is_a_hub_for_site`
      row on blog `hub`, in table order; empty when there is none. */
  function GetSpokeSitesForHub(rows: seq<MetaRow>, hub: BlogId): (spokes: seq<BlogId>)
    ensures forall s :: s in spokes <==> MetaRow(hub, HubForSiteKey, s) in rows
    ensures |spokes| <= |rows|
  {
    if |rows| == 0 then []
    else
      assert rows == [rows[0]] + rows[1..];
      (if rows[0].key == HubForSiteKey && rows[0].blog == hub then [rows[0].value] else [])
      + GetSpokeSitesForHub(rows[1..], hub)
  }

  /** When no two rows share a (blog, key) pair, a hub has at most one
      spoke: `update_site_meta` keeps a single `is_a_hub_for_site` row per hub. */
  lemma {:induction false} AtMostOneSpokePerHub(rows: seq<MetaRow>, hub: BlogId)
    requires UniqueKeys(rows)
    ensures |GetSpokeSitesForHub(rows, hub)| <= 1
    decreases |rows|
  {
    if |rows| > 0 {
      UniqueKeysSplit(rows);
      AtMostOneSpokePerHub(rows[1..], hub);
      var tail := GetSpokeSitesForHub(rows[1..], hub);
      if rows[0].key == HubForSiteKey && rows[0].blog == hub && |tail| > 0 {
        assert MetaRow(hub, HubForSiteKey, tail[0]) in rows[1..];
        assert SameKey(rows[0], MetaRow(hub, HubForSiteKey, tail[0]));
        assert false;
      }
    }
  }

  /** The post `create_reusable_block_on_spoke` inserts for a block: its
      raw content and title, its status, type `wp_block`; the insert
      supplies no slug. */
  function BlockPost(block: BlockJson): Post {
    Post(title := block.titleRaw, content := block.contentRaw, name := "",
         status := block.status, postType := BlockPostType)
  }

  /** `create_reusable_block_on_spoke`: inserts one new `wp_block` post on
      the current blog, tags it with `srb_from_site = hub` and
      `srb_from_post = block.id`, and returns its id. It never looks for an
      existing replica, so each call adds one more. */
  function CreateReusableBlockOnSpoke(st: State, block: BlockJson, hub: BlogId): (r: (State, PostId))
    ensures var site := SiteAt(st, st.current); var site' := SiteAt(r.0, st.current);
      && r.1 == site.nextId
      && site'.posts == site.posts[r.1 := BlockPost(block)]
      && site'.nextId == site.nextId + 1
      && site.postmeta <= site'.postmeta
      && r.0 == WithSite(st, st.current, site')
      && (ValidSite(site) ==>
           && r.1 !in site.posts
           && ValidSite(site')
           && ReplicaIds(site', hub, block.id) == ReplicaIds(site, hub, block.id) + {r.1}
           && r.1 !in ReplicaIds(site, hub, block.id)
           && forall h, o :: (h != hub || o != block.id) ==> ReplicaIds(site', h, o) == ReplicaIds(site, h, o))
  {
    var site := SiteAt(st, st.current);
    var (inserted, id) := InsertPost(site, BlockPost(block));
    var tagged := AddPostMeta(AddPostMeta(inserted, id, FromSiteKey, hub), id, FromPostKey, block.id);
    if ValidSite(site) then
      NewReplica(site, tagged, id, block, hub);
      (WithSite(st, st.current, tagged), id)
    else
      (WithSite(st, st.current, tagged), id)
  }

  /** What the insert and the two `add_post_meta` calls do to provenance:
      the new id joins exactly the replica set of (hub, block.id). */
  lemma NewReplica(site: Site, site': Site, id: PostId, block: BlockJson, hub: BlogId)
    requires ValidSite(site) && id == site.nextId
    requires site'.posts == site.posts[id := BlockPost(block)] && site'.nextId == id + 1
    requires site'.postmeta == site.postmeta + [PostMeta(id, FromSiteKey, hub), PostMeta(id, FromPostKey, block.id)]
    ensures ValidSite(site')
    ensures ReplicaIds(site', hub, block.id) == ReplicaIds(site, hub, block.id) + {id}
    ensures forall h, o :: (h != hub || o != block.id) ==> ReplicaIds(site', h, o) == ReplicaIds(site, h, o)
  {
    forall m | m in site.postmeta ensures m.post != id {
      var i :| 0 <= i < |site.postmeta| && site.postmeta[i] == m;
    }
    forall h, o ensures ReplicaIds(site', h, o) == ReplicaIds(site, h, o) + (if h == hub && o == block.id then {id} else {}) {
      forall p ensures p in ReplicaIds(site', h, o) <==> p in ReplicaIds(site, h, o) + (if h == hub && o == block.id then {id} else {}) {
        if p == id {
          assert PostMeta(id, FromSiteKey, hub) in site'.postmeta;
          assert PostMeta(id, FromPostKey, block.id) in site'.postmeta;
        }
      }
    }
  }

  /** `create_reusable_block_data_from_post_object`. */
  function CreateReusableBlockDataFromPostObject(p: WpPost): (r: BlockJson)
    ensures r.id == p.id
    ensures BlockPost(r) == p.post.(name := "", postType := BlockPostType)
  {
    BlockJson(id := p.id, status := p.post.status, titleRaw := p.post.title, contentRaw := p.post.content)
  }

  /** Building a block from a post and creating it on the current blog gives
      a replica with the post's title, content and status whose provenance
      names the post's id and the given hub. */
  lemma PostObjectRoundTrip(st: State, p: WpPost, hub: BlogId)
    requires ValidSite(SiteAt(st, st.current))
    ensures var (st', id) := CreateReusableBlockOnSpoke(st, CreateReusableBlockDataFromPostObject(p), hub);
      var made := SiteAt(st', st.current).posts[id];
      && made.title == p.post.title && made.content == p.post.content && made.status == p.post.status
      && made.postType == BlockPostType
      && id in ReplicaIds(SiteAt(st', st.current), hub, p.id)
  {
  }

  /** Creating the same block from the same hub twice gives two distinct
      posts with identical provenance. */
  lemma CreateTwiceDuplicates(st: State, block: BlockJson, hub: BlogId)
    requires ValidSite(SiteAt(st, st.current))
    ensures var (st1, a) := CreateReusableBlockOnSpoke(st, block, hub);
      var (st2, b) := CreateReusableBlockOnSpoke(st1, block, hub);
      && a != b
      && {a, b} <= ReplicaIds(SiteAt(st2, st.current), hub, block.id)
      && |ReplicaIds(SiteAt(st2, st.current), hub, block.id)| == |ReplicaIds(SiteAt(st, st.current), hub, block.id)| + 2
  {
  }
}

=== FILE: hooks.dfy ===
/** Whole requests: the callbacks `load_srb_files` registers, run in the
    order WordPress dispatches them. Saving an option runs the three
    `updated_option` callbacks; saving a block through REST runs the two
    `rest_after_insert_wp_block` callbacks. */
module Hooks {
  import opened Store
  import opened Helpers
  import Php
  import Options
  import CloneBlocks
  import Bootstrap

  /** `do_action`: the callbacks in run order, each applied to the state
      the previous one left. */
  function DoAction(cbs: seq<Bootstrap.Callback>, st: State, run: (Bootstrap.Callback, State) -> State): State
    decreases |cbs|
  {
    if |cbs| == 0 then st else DoAction(cbs[1..], run(cbs[0], st), run)
  }

  /** `DoAction` over a sequence is `DoAction` over its parts in turn. */
  lemma {:induction false} DoActionAppend(a: seq<Bootstrap.Callback>, b: seq<Bootstrap.Callback>, st: State,
                                          run: (Bootstrap.Callback, State) -> State)
    ensures DoAction(a + b, st, run) == DoAction(b, DoAction(a, st, run), run)
    decreases |a|
  {
    if |a| > 0 {
      assert (a + b)[0] == a[0] && (a + b)[1..] == a[1..] + b;
      DoActionAppend(a[1..], b, run(a[0], st), run);
    } else {
      assert a + b == b;
    }
  }

  /** `DoAction` over two and three callbacks. */
  lemma DoActionUnrolled(a: Bootstrap.Callback, b: Bootstrap.Callback, c: Bootstrap.Callback, st: State,
                         run: (Bootstrap.Callback, State) -> State)
    ensures DoAction([a, b], st, run) == run(b, run(a, st))
    ensures DoAction([a, b, c], st, run) == run(c, run(b, run(a, st)))
  {
    DoActionAppend([a], [b], st, run);
    DoActionAppend([a, b], [c], st, run);
    assert [a] + [b] == [a, b] && [a, b] + [c] == [a, b, c];
    assert DoAction([c], run(b, run(a, st)), run) == run(c, run(b, run(a, st)));
  }

  /** One `updated_option` callback. */
  function RunUpdatedOption(option: string, oldValue: Php.Value, value: Php.Value, isAdmin: bool,
                            fetch: CloneBlocks.Fetch): (Bootstrap.Callback, State) -> State {
    (cb: Bootstrap.Callback, st: State) =>
      match cb
      case SiteIsHub => Options.UpdatedOptionSiteIsHub(st, option, oldValue, value)
      case UseAsHubs => Options.UpdatedOptionUseAsHubs(st, option, oldValue, value)
      case ClonePull => CloneBlocks.CloneHubBlocksToSpoke(st, option, oldValue, value, isAdmin, fetch)
      case _ => st
  }

  /** `update_option` of a changed value: the hub flag handler, then the
      selection handler, then the pull, each seeing the state the previous
      one left (the order `SaveOptionRunsInDispatchOrder` derives from the
      registrations). The blog context is the same after the request as
      before it, and only the current blog's tables and `blogmeta` change. */
  function SaveOption(st: State, option: string, oldValue: Php.Value, value: Php.Value,
                      isAdmin: bool, fetch: CloneBlocks.Fetch): (r: State)
    ensures r.current == st.current && r.switched == st.switched
    ensures forall b :: b != st.current ==> SiteAt(r, b) == SiteAt(st, b)
  {
    var flagged := Options.UpdatedOptionSiteIsHub(st, option, oldValue, value);
    var linked := Options.UpdatedOptionUseAsHubs(flagged, option, oldValue, value);
    CloneBlocks.CloneHubBlocksToSpoke(linked, option, oldValue, value, isAdmin, fetch)
  }

  /** The hub flag callback's step is `UpdatedOptionSiteIsHub`. */
  lemma RunSiteIsHubStep(st: State, option: string, oldValue: Php.Value, value: Php.Value,
                         isAdmin: bool, fetch: CloneBlocks.Fetch)
    ensures RunUpdatedOption(option, oldValue, value, isAdmin, fetch)(Bootstrap.SiteIsHub, st)
         == Options.UpdatedOptionSiteIsHub(st, option, oldValue, value)
  {
  }

  /** The selection callback's step is `UpdatedOptionUseAsHubs`. */
  lemma RunUseAsHubsStep(st: State, option: string, oldValue: Php.Value, value: Php.Value,
                         isAdmin: bool, fetch: CloneBlocks.Fetch)
    ensures RunUpdatedOption(option, oldValue, value, isAdmin, fetch)(Bootstrap.UseAsHubs, st)
         == Options.UpdatedOptionUseAsHubs(st, option, oldValue, value)
  {
  }

  /** The pull callback's step is `CloneHubBlocksToSpoke`. */
  lemma RunClonePullStep(st: State, option: string, oldValue: Php.Value, value: Php.Value,
                         isAdmin: bool, fetch: CloneBlocks.Fetch)
    ensures RunUpdatedOption(option, oldValue, value, isAdmin, fetch)(Bootstrap.ClonePull, st)
         == CloneBlocks.CloneHubBlocksToSpoke(st, option, oldValue, value, isAdmin, fetch)
  {
  }

  /** `SaveOption` is the three `updated_option` callbacks in priority
      order. */
  lemma SaveOptionIsThreeCallbacks(st: State, option: string, oldValue: Php.Value, value: Php.Value,
                                   isAdmin: bool, fetch: CloneBlocks.Fetch)
    ensures DoAction([Bootstrap.SiteIsHub, Bootstrap.UseAsHubs, Bootstrap.ClonePull], st,
                     RunUpdatedOption(option, oldValue, value, isAdmin, fetch))
         == SaveOption(st, option, oldValue, value, isAdmin, fetch)
  {
    var run := RunUpdatedOption(option, oldValue, value, isAdmin, fetch);
    DoActionUnrolled(Bootstrap.SiteIsHub, Bootstrap.UseAsHubs, Bootstrap.ClonePull, st, run);
    var flagged := Options.UpdatedOptionSiteIsHub(st, option, oldValue, value);
    var linked := Options.UpdatedOptionUseAsHubs(flagged, option, oldValue, value);
    RunSiteIsHubStep(st, option, oldValue, value, isAdmin, fetch);
    RunUseAsHubsStep(flagged, option, oldValue, value, isAdmin, fetch);
    RunClonePullStep(linked, option, oldValue, value, isAdmin, fetch);
  }

  /** Whatever the callbacks do, WordPress runs the `updated_option` ones in
      the same order, whether or not the REST classes loaded. */
  lemma UpdatedOptionDispatched(isRest: bool, st: State, run: (Bootstrap.Callback, State) -> State)
    ensures DoAction(Bootstrap.CallbackNames(Bootstrap.Dispatch(Bootstrap.LoadSrbFiles(isRest), Bootstrap.UpdatedOption)), st, run)
         == DoAction([Bootstrap.SiteIsHub, Bootstrap.UseAsHubs, Bootstrap.ClonePull], st, run)
  {
    Bootstrap.UpdatedOptionOrder(isRest);
  }

  /** WordPress runs the plugin's `updated_option` callbacks in the order
      `SaveOption` composes them. */
  lemma SaveOptionRunsInDispatchOrder(isRest: bool, st: State, option: string, oldValue: Php.Value,
                                      value: Php.Value, isAdmin: bool, fetch: CloneBlocks.Fetch)
    ensures DoAction(Bootstrap.CallbackNames(Bootstrap.Dispatch(Bootstrap.LoadSrbFiles(isRest), Bootstrap.UpdatedOption)),
                     st, RunUpdatedOption(option, oldValue, value, isAdmin, fetch))
         == SaveOption(st, option, oldValue, value, isAdmin, fetch)
  {
    UpdatedOptionDispatched(isRest, st, RunUpdatedOption(option, oldValue, value, isAdmin, fetch));
    SaveOptionIsThreeCallbacks(st, option, oldValue, value, isAdmin, fetch);
  }

  /** One `rest_after_insert_wp_block` callback. */
  function RunAfterInsert(post: WpPost, creating: Php.Value): (Bootstrap.Callback, State) -> State {
    (cb: Bootstrap.Callback, st: State) =>
      match cb
      case PushBlock => CloneBlocks.PushBlockToSpoke(st, post, creating)
      case EditBlock => CloneBlocks.EditBlockOnSpoke(st, post, creating)
      case _ => st
  }


  /** A block saved through the REST API of a site: the push, then the
      edit. The blog context and `blogmeta` are the same afterwards. */
  function SaveBlock(st: State, post: WpPost, creating: Php.Value): (r: State)
    ensures r.blogmeta == st.blogmeta && r.current == st.current && r.switched == st.switched
  {
    CloneBlocks.EditBlockOnSpoke(CloneBlocks.PushBlockToSpoke(st, post, creating), post, creating)
  }

  /** `SaveBlock` is the two `rest_after_insert_wp_block` callbacks in
      priority order. */
  lemma SaveBlockIsTwoCallbacks(st: State, post: WpPost, creating: Php.Value)
    ensures DoAction([Bootstrap.PushBlock, Bootstrap.EditBlock], st, RunAfterInsert(post, creating))
         == SaveBlock(st, post, creating)
  {
    var run := RunAfterInsert(post, creating);
    DoActionUnrolled(Bootstrap.PushBlock, Bootstrap.EditBlock, Bootstrap.EditBlock, st, run);
    var pushed := CloneBlocks.PushBlockToSpoke(st, post, creating);
    assert run(Bootstrap.PushBlock, st) == pushed;
    assert run(Bootstrap.EditBlock, pushed) == CloneBlocks.EditBlockOnSpoke(pushed, post, creating);
  }

  /** Whatever the callbacks do, WordPress runs the push before the edit. */
  lemma AfterInsertDispatched(isRest: bool, st: State, run: (Bootstrap.Callback, State) -> State)
    ensures DoAction(Bootstrap.CallbackNames(Bootstrap.Dispatch(Bootstrap.LoadSrbFiles(isRest), Bootstrap.AfterInsertBlock)), st, run)
         == DoAction([Bootstrap.PushBlock, Bootstrap.EditBlock], st, run)
  {
    Bootstrap.AfterInsertBlockOrder(isRest);
  }

  /** WordPress runs the plugin's `rest_after_insert_wp_block` callbacks in
      the order `SaveBlock` composes them. */
  lemma SaveBlockRunsInDispatchOrder(isRest: bool, st: State, post: WpPost, creating: Php.Value)
    ensures DoAction(Bootstrap.CallbackNames(Bootstrap.Dispatch(Bootstrap.LoadSrbFiles(isRest), Bootstrap.AfterInsertBlock)),
                     st, RunAfterInsert(post, creating))
         == SaveBlock(st, post, creating)
  {
    AfterInsertDispatched(isRest, st, RunAfterInsert(post, creating));
    SaveBlockIsTwoCallbacks(st, post, creating);
  }

  /** Saving the hub flag touches nothing but the flag: the selection
      handler and the pull ignore that option. */
  lemma SavingHubFlagOnlyFlags(st: State, oldValue: Php.Value, value: Php.Value,
                               isAdmin: bool, fetch: CloneBlocks.Fetch)
    ensures SaveOption(st, Options.HubOption, oldValue, value, isAdmin, fetch)
         == Options.UpdatedOptionSiteIsHub(st, Options.HubOption, oldValue, value)
  {
    Options.OptionNamesDiffer();
  }

  /** Saving a non-empty hub selection, with key-unique `blogmeta`: every
      selected hub lists the current blog as its only spoke. */
  lemma SavingSelectionLinksHubs(st: State, oldValue: Php.Value, value: Php.Value,
                                 isAdmin: bool, fetch: CloneBlocks.Fetch, h: BlogId)
    requires UniqueKeys(st.blogmeta)
    requires !Php.IsEmptySelection(value) && h != 0 && h in Options.SelectedHubs(value.entries)
    ensures GetSpokeSitesForHub(SaveOption(st, Options.UseAsHubsOption, oldValue, value, isAdmin, fetch).blogmeta, h)
         == [st.current]
  {
    Options.OptionNamesDiffer();
    Options.SelectionReplacesPreviousSpoke(st, value, oldValue, h);
  }

  /** Saving a non-empty hub selection in the admin: the current blog gains
      one replica per block each selected hub returned, on top of any it
      already held; each such block gets a new post copying it, and every
      new post is a replica, with that provenance, of one of them. */
  lemma SavingSelectionPullsBlocks(st: State, oldValue: Php.Value, value: Php.Value,
                                   fetch: CloneBlocks.Fetch, h: BlogId, o: PostId)
    requires ValidSite(SiteAt(st, st.current)) && !Php.IsEmptySelection(value)
    ensures var r := SaveOption(st, Options.UseAsHubsOption, oldValue, value, true, fetch);
      |ReplicaIds(SiteAt(r, st.current), h, o)|
      == |ReplicaIds(SiteAt(st, st.current), h, o)|
         + (if h in Php.EntryValues(value.entries) && CloneBlocks.Fetched(fetch, h)
            then CloneBlocks.CountId(fetch(h).value, o) else 0)
    ensures var r := SaveOption(st, Options.UseAsHubsOption, oldValue, value, true, fetch);
      CloneBlocks.NewPostsAmong(SiteAt(st, st.current), SiteAt(r, st.current), CloneBlocks.SelectedPosts(value.entries, fetch))
    ensures var r := SaveOption(st, Options.UseAsHubsOption, oldValue, value, true, fetch);
      forall h', b :: h' in Php.EntryValues(value.entries) && CloneBlocks.Fetched(fetch, h') && b in fetch(h').value ==>
        CloneBlocks.CopiedIn(SiteAt(st, st.current), SiteAt(r, st.current), b)
    ensures var r := SaveOption(st, Options.UseAsHubsOption, oldValue, value, true, fetch);
      CloneBlocks.PulledReplicasOnly(SiteAt(st, st.current), SiteAt(r, st.current), Php.EntryValues(value.entries), fetch)
  {
    var option := Options.UseAsHubsOption;
    var linked := Options.UpdatedOptionUseAsHubs(st, option, oldValue, value);
    assert SaveOption(st, option, oldValue, value, true, fetch)
        == CloneBlocks.CloneHubBlocksToSpoke(linked, option, oldValue, value, true, fetch) by {
      Options.OptionNamesDiffer();
    }
    assert linked.current == st.current && SiteAt(linked, st.current) == SiteAt(st, st.current);
    CloneBlocks.PullAddsReplicas(linked, option, oldValue, value, true, fetch, h, o);
    assert CloneBlocks.Pulls(option, value, true);
  }

  /** The protocol on a hub with a spoke, when WordPress reports a create
      (`$creating` is `true`): the push copies the block to the spoke, the
      edit handler's guards pass so it runs as well, and since it creates
      nothing the spoke ends with exactly one more replica. Which replica
      the edit rewrites, if any, depends on the lookup. */
  lemma CreatingOnHubReplicatesOnce(st: State, post: WpPost, s: BlogId)
    requires Valid(st) && UniqueKeys(st.blogmeta)
    requires SiteIsAHub(st.blogmeta, st.current)
    requires s != 0 && s in GetSpokeSitesForHub(st.blogmeta, st.current)
    ensures var r := SaveBlock(st, post, Php.Bool(true));
      |ReplicaIds(SiteAt(r, s), st.current, post.id)| == |ReplicaIds(SiteAt(st, s), st.current, post.id)| + 1
    ensures CloneBlocks.EditGuardsPass(CloneBlocks.PushBlockToSpoke(st, post, Php.Bool(true)), Php.Bool(true))
  {
    var pushed := CloneBlocks.PushBlockToSpoke(st, post, Php.Bool(true));
    CloneBlocks.PushGivesSpokeOneReplica(st, post, Php.Bool(true), s);
    CloneBlocks.EditKeepsReplicaSets(pushed, post, Php.Bool(true), s, st.current, post.id);
  }

  /** When `$creating` is the integer 1 the edit handler stands aside and
      only the push runs. */
  lemma IntegerCreatingOnlyPushes(st: State, post: WpPost)
    ensures SaveBlock(st, post, Php.Int(1)) == CloneBlocks.PushBlockToSpoke(st, post, Php.Int(1))
  {
  }

  /** An update on a hub (`$creating` is `false`) creates nothing anywhere:
      every blog keeps its posts, postmeta and replica counts. */
  lemma UpdatingOnHubCreatesNothing(st: State, post: WpPost, b: BlogId, h: BlogId, o: PostId)
    ensures var r := SaveBlock(st, post, Php.Bool(false));
      && SiteAt(r, b).posts.Keys == SiteAt(st, b).posts.Keys
      && SiteAt(r, b).postmeta == SiteAt(st, b).postmeta
      && ReplicaIds(SiteAt(r, b), h, o) == ReplicaIds(SiteAt(st, b), h, o)
  {
    var r := SaveBlock(st, post, Php.Bool(false));
    assert CloneBlocks.PushBlockToSpoke(st, post, Php.Bool(false)) == st;
    assert SiteAt(r, b).posts.Keys == SiteAt(st, b).posts.Keys;
  }

  /** An update on a hub (`$creating` is `false`) whose spoke holds the
      replica the lookup finds rewrites that replica with the saved post's
      title, content and name. */
  lemma UpdatingOnHubRewritesReplica(st: State, post: WpPost, s: BlogId)
    requires UniqueKeys(st.blogmeta) && SiteIsAHub(st.blogmeta, st.current)
    requires s != 0 && s in GetSpokeSitesForHub(st.blogmeta, st.current)
    requires var found := CloneBlocks.FindReplica(SiteAt(st, s), st.current, post.id);
      found.Some? && found.value != 0 && found.value in SiteAt(st, s).posts
    ensures var p := CloneBlocks.FindReplica(SiteAt(st, s), st.current, post.id).value;
      SiteAt(SaveBlock(st, post, Php.Bool(false)), s).posts[p] == CloneBlocks.Edited(SiteAt(st, s).posts[p], post.post)
  {
    assert CloneBlocks.PushBlockToSpoke(st, post, Php.Bool(false)) == st;
    var spokes := GetSpokeSitesForHub(st.blogmeta, st.current);
    AtMostOneSpokePerHub(st.blogmeta, st.current);
    Options.SingletonHolds(spokes, s);
    assert CloneBlocks.ReplicaFound(st, spokes[0], st.current, post.id);
    CloneBlocks.EditRewritesSpokeReplica(st, post, Php.Bool(false), 0);
  }
}

=== FILE: json.dfy ===
/** Nested PHP arrays as the REST layer passes them around: the response
    data and the schema of the block controller. Only the path operations
    the controller performs are defined: reading a nested key, assigning
    one (creating missing levels, as PHP does), and `unset`. */
module Json {
  import opened Wrappers

  datatype Json = JNull | JBool(b: bool) | JInt(i: int) | JStr(s: string) | JList(items: seq<Json>)
                | JObj(fields: map<string, Json>)

  type Path = seq<string>

  /** `p` is a prefix of `q`. */
  predicate IsPrefix(p: Path, q: Path) {
    |p| <= |q| && q[..|p|] == p
  }

  /** Neither path lies inside the other. */
  predicate Apart(p: Path, q: Path) {
    !IsPrefix(p, q) && !IsPrefix(q, p)
  }

  lemma ApartTails(p: Path, q: Path)
    requires |p| > 0 && |q| > 0 && p[0] == q[0]
    ensures Apart(p, q) <==> Apart(p[1..], q[1..])
  {
    assert IsPrefix(p, q) <==> IsPrefix(p[1..], q[1..]) by {
      if |p| <= |q| {
        assert q[..|p|] == [q[0]] + q[1..][..|p| - 1];
        assert p == [p[0]] + p[1..];
      }
    }
    assert IsPrefix(q, p) <==> IsPrefix(q[1..], p[1..]) by {
      if |q| <= |p| {
        assert p[..|q|] == [p[0]] + p[1..][..|q| - 1];
        assert q == [q[0]] + q[1..];
      }
    }
  }

  /** `$j[p0][p1]...`, or None when some level is missing or not an array. */
  function Get(j: Json, path: Path): Option<Json> {
    if |path| == 0 then Some(j)
    else match j
      case JObj(f) => if path[0] in f then Get(f[path[0]], path[1..]) else None
      case _ => None
  }

  /** Every level along `path` is an array, null or missing, so PHP can
      assign through it. */
  predicate Assignable(j: Json, path: Path) {
    if |path| == 0 then true
    else match j
      case JNull => true
      case JObj(f) => path[0] !in f || Assignable(f[path[0]], path[1..])
      case _ => false
  }

  /** `$j[p0][p1]... = $v`. Missing or null levels become arrays; assigning
      through a scalar is a PHP error and leaves the value as it was. The
      value lands at `path` when the path is assignable, and nothing apart
      from `path` changes. */
  function Set(j: Json, path: Path, v: Json): (r: Json)
    ensures Assignable(j, path) ==> Get(r, path) == Some(v)
    ensures forall q :: Apart(path, q) ==> Get(r, q) == Get(j, q)
    ensures forall q :: Apart(path, q) && Assignable(j, q) ==> Assignable(r, q)
    decreases |path|
  {
    if |path| == 0 then v
    else match j
      case JNull =>
        var child := Set(JNull, path[1..], v);
        var r := JObj(map[path[0] := child]);
        SetFrame(j, path, v, r, child);
        r
      case JObj(f) =>
        var child := Set(if path[0] in f then f[path[0]] else JNull, path[1..], v);
        var r := JObj(f[path[0] := child]);
        SetFrame(j, path, v, r, child);
        r
      case _ => j
  }

  /** The frame of one level of Set, given the frame of the level below. */
  lemma SetFrame(j: Json, path: Path, v: Json, r: Json, child: Json)
    requires |path| > 0 && (j.JNull? || j.JObj?)
    requires r.JObj? && r.fields == (if j.JObj? then j.fields else map[])[path[0] := child]
    requires var below := if j.JObj? && path[0] in j.fields then j.fields[path[0]] else JNull;
      && (forall q :: Apart(path[1..], q) ==> Get(child, q) == Get(below, q))
      && (forall q :: Apart(path[1..], q) && Assignable(below, q) ==> Assignable(child, q))
    ensures forall q :: Apart(path, q) ==> Get(r, q) == Get(j, q)
    ensures forall q :: Apart(path, q) && Assignable(j, q) ==> Assignable(r, q)
  {
    forall q | Apart(path, q) ensures Get(r, q) == Get(j, q) && (Assignable(j, q) ==> Assignable(r, q)) {
      assert |q| > 0 by { assert IsPrefix([], path); }
      if q[0] == path[0] {
        ApartTails(path, q);
      }
    }
  }

  /** `unset( $j[p0]...[pn] )`: removes the last key when every level above
      it is an array; otherwise nothing happens. Afterwards nothing is
      found at `path`, and everything apart from it is as it was. */
  function Unset(j: Json, path: Path): (r: Json)
    requires |path| > 0
    ensures Get(r, path) == None
    ensures forall q :: Apart(path, q) ==> Get(r, q) == Get(j, q)
    ensures forall q :: Apart(path, q) && Assignable(j, q) ==> Assignable(r, q)
    decreases |path|
  {
    match j
    case JObj(f) =>
      if |path| == 1 then
        var r := JObj(map k | k in f && k != path[0] :: f[k]);
        UnsetFrame(j, path, r, JNull);
        r
      else if path[0] in f then
        var child := Unset(f[path[0]], path[1..]);
        var r := JObj(f[path[0] := child]);
        UnsetFrame(j, path, r, child);
        r
      else j
    case _ => j
  }

  /** The frame of one level of Unset. */
  lemma UnsetFrame(j: Json, path: Path, r: Json, child: Json)
    requires |path| > 0 && j.JObj? && r.JObj?
    requires |path| == 1 ==> r.fields == map k | k in j.fields && k != path[0] :: j.fields[k]
    requires |path| > 1 ==> && path[0] in j.fields && r.fields == j.fields[path[0] := child]
                            && (forall q :: Apart(path[1..], q) ==> Get(child, q) == Get(j.fields[path[0]], q))
                            && (forall q :: Apart(path[1..], q) && Assignable(j.fields[path[0]], q) ==> Assignable(child, q))
    ensures forall q :: Apart(path, q) ==> Get(r, q) == Get(j, q)
    ensures forall q :: Apart(path, q) && Assignable(j, q) ==> Assignable(r, q)
  {
    forall q | Apart(path, q) ensures Get(r, q) == Get(j, q) && (Assignable(j, q) ==> Assignable(r, q)) {
      assert |q| > 0 by { assert IsPrefix([], path); }
      if q[0] == path[0] {
        ApartTails(path, q);
      }
    }
  }
}

=== FILE: options.dfy ===
/** The plugin's `Options` class: the two `updated_option` handlers that keep
    the `blogmeta` topology in step with each site's settings. */
module Options {
  import opened Store
  import opened Helpers
  import Php
  import Seqs

  /** The hub checkbox option. */
  const HubOption: string := "srb_site_is_hub"
  /** The "use these hubs" multi-select option. */
  const UseAsHubsOption: string := "srb_use_as_hubs"

  /** The two options are told apart, so each handler ignores the other's
      save. */
  lemma OptionNamesDiffer()
    ensures HubOption != UseAsHubsOption
  {
    assert HubOption[4] != UseAsHubsOption[4];
  }

  /** `updated_option__srb_site_is_hub`: on a save of the hub option, an
      `absint` value of 0 deletes the current blog's hub flag, 1 sets it, and
      any other value does nothing. Only `blogmeta` ever changes. */
  function UpdatedOptionSiteIsHub(st: State, option: string, oldValue: Php.Value, value: Php.Value): (r: State)
    ensures option != HubOption ==> r == st
    ensures r == st.(blogmeta := r.blogmeta)
    ensures option == HubOption && Php.Absint(value) == 1 && st.current != 0 ==>
      SiteIsAHub(r.blogmeta, st.current)
    ensures option == HubOption && Php.Absint(value) == 0 && st.current != 0 ==>
      !SiteIsAHub(r.blogmeta, st.current)
    ensures option == HubOption && Php.Absint(value) > 1 ==> r == st
    ensures forall row :: !HasKey(row, st.current, HubFlagKey) ==>
      multiset(r.blogmeta)[row] == multiset(st.blogmeta)[row]
    ensures UniqueKeys(st.blogmeta) ==> UniqueKeys(r.blogmeta)
  {
    if option != HubOption then st
    else
      var v := Php.Absint(value);
      if v == 0 then st.(blogmeta := DeleteSiteMeta(st.blogmeta, st.current, HubFlagKey))
      else if v == 1 then st.(blogmeta := UpdateSiteMeta(st.blogmeta, st.current, HubFlagKey, 1))
      else st
  }

  /** `remove_spoke_site_from_all_hubs`: deletes exactly the
      `is_a_hub_for_site` rows whose value is the spoke; every other row
      keeps its multiplicity. */
  function RemoveSpokeSiteFromAllHubs(rows: seq<MetaRow>, spoke: BlogId): (r: seq<MetaRow>)
    ensures forall row: MetaRow :: row.key == HubForSiteKey && row.value == spoke ==> multiset(r)[row] == 0
    ensures forall row: MetaRow :: !(row.key == HubForSiteKey && row.value == spoke) ==> multiset(r)[row] == multiset(rows)[row]
    ensures forall h :: spoke !in GetSpokeSitesForHub(r, h)
    ensures UniqueKeys(rows) ==> UniqueKeys(r)
  {
    var keep := (row: MetaRow) => !(row.key == HubForSiteKey && row.value == spoke);
    FilterKeepsUniqueKeys(rows, keep);
    Seqs.Filter(rows, keep)
  }

  /** The non-placeholder hub ids a selection names. */
  function SelectedHubs(entries: seq<Php.Entry>): set<BlogId> {
    if |entries| == 0 then {}
    else (if entries[0].value != 0 then {entries[0].value} else {}) + SelectedHubs(entries[1..])
  }

  /** The `foreach` of `updated_option__srb_use_as_hubs`: one
      `update_site_meta( $hub, 'is_a_hub_for_site', $spoke )` per entry. Each
      named hub ends with all its link rows pointing at the spoke; rows of
      other hubs, and rows under other keys, are untouched. */
  function LinkHubs(rows: seq<MetaRow>, entries: seq<Php.Entry>, spoke: BlogId): (r: seq<MetaRow>)
    ensures forall h :: h in SelectedHubs(entries) ==> spoke in GetSpokeSitesForHub(r, h)
    ensures forall row :: row in r && row.key == HubForSiteKey && row.blog in SelectedHubs(entries) ==> row.value == spoke
    ensures forall row: MetaRow :: (row.key != HubForSiteKey || row.blog !in SelectedHubs(entries)) ==>
      multiset(r)[row] == multiset(rows)[row]
    ensures UniqueKeys(rows) ==> UniqueKeys(r)
    decreases |entries|
  {
    if |entries| == 0 then rows
    else
      var e := entries[0];
      var next := UpdateSiteMeta(rows, e.value, HubForSiteKey, spoke);
      var r := LinkHubs(next, entries[1..], spoke);
      if e.value != 0 && e.value !in SelectedHubs(entries[1..]) then
        assert MetaRow(e.value, HubForSiteKey, spoke) in r by {
          assert !HasKey(MetaRow(e.value, HubForSiteKey, spoke), 0, "") ;
          assert multiset(next)[MetaRow(e.value, HubForSiteKey, spoke)] > 0;
        }
        r
      else
        r
  }

  /** `updated_option__srb_use_as_hubs`: an empty selection unlinks the
      current blog from every hub; otherwise it is unlinked and then linked
      to each selected hub. Only `blogmeta` ever changes. */
  function UpdatedOptionUseAsHubs(st: State, option: string, oldValue: Php.Value, value: Php.Value): (r: State)
    ensures option != UseAsHubsOption ==> r == st
    ensures r == st.(blogmeta := r.blogmeta)
    ensures option == UseAsHubsOption && Php.IsEmptySelection(value) ==>
      && (forall row :: row in r.blogmeta ==> row in st.blogmeta)
      && (forall h :: st.current !in GetSpokeSitesForHub(r.blogmeta, h))
    ensures option == UseAsHubsOption && !Php.IsEmptySelection(value) ==>
      forall h :: h != 0 ==> (st.current in GetSpokeSitesForHub(r.blogmeta, h) <==> h in SelectedHubs(value.entries))
    ensures option == UseAsHubsOption ==>
      forall row: MetaRow :: row.key != HubForSiteKey ==> multiset(r.blogmeta)[row] == multiset(st.blogmeta)[row]
    ensures option == UseAsHubsOption ==>
      forall row: MetaRow :: row.value != st.current && (Php.IsEmptySelection(value) || row.blog !in SelectedHubs(value.entries)) ==>
        multiset(r.blogmeta)[row] == multiset(st.blogmeta)[row]
    ensures UniqueKeys(st.blogmeta) ==> UniqueKeys(r.blogmeta)
  {
    if option != UseAsHubsOption then st
    else if Php.IsEmptySelection(value) then
      st.(blogmeta := RemoveSpokeSiteFromAllHubs(st.blogmeta, st.current))
    else
      var cleared := RemoveSpokeSiteFromAllHubs(st.blogmeta, st.current);
      var linked := LinkHubs(cleared, value.entries, st.current);
      UnselectedHubsLoseSpoke(cleared, linked, value.entries, st.current);
      st.(blogmeta := linked)
  }

  /** After the spoke is unlinked everywhere and relinked to the selection,
      no hub outside the selection lists it. */
  lemma UnselectedHubsLoseSpoke(cleared: seq<MetaRow>, linked: seq<MetaRow>, entries: seq<Php.Entry>, spoke: BlogId)
    requires forall h :: spoke !in GetSpokeSitesForHub(cleared, h)
    requires linked == LinkHubs(cleared, entries, spoke)
    ensures forall h :: h !in SelectedHubs(entries) ==> spoke !in GetSpokeSitesForHub(linked, h)
  {
    forall h | h !in SelectedHubs(entries) ensures spoke !in GetSpokeSitesForHub(linked, h) {
      var row := MetaRow(h, HubForSiteKey, spoke);
      assert spoke !in GetSpokeSitesForHub(cleared, h);
      assert row !in cleared;
      assert multiset(cleared)[row] == 0;
      assert row.blog !in SelectedHubs(entries);
      assert multiset(linked)[row] == multiset(cleared)[row];
      assert row !in linked;
    }
  }

  /** `at_least_one_hub_registered`: `fetch_hub_sites` is non-empty. */
  function AtLeastOneHubRegistered(rows: seq<MetaRow>): (r: bool)
    ensures r <==> exists b :: MetaRow(b, HubFlagKey, 1) in rows
  {
    var hubs := FetchHubSites(rows);
    if |hubs| >= 1 then
      assert MetaRow(hubs[0], HubFlagKey, 1) in rows;
      true
    else false
  }

  lemma SingletonHolds(s: seq<BlogId>, x: BlogId)
    requires |s| <= 1 && x in s
    ensures s == [x]
  {
  }

  /** With key-unique `blogmeta`, a spoke that selects a hub replaces
      whichever spoke that hub was linked to: the hub ends with exactly one
      spoke, the one that saved last. */
  lemma SelectionReplacesPreviousSpoke(st: State, value: Php.Value, oldValue: Php.Value, h: BlogId)
    requires UniqueKeys(st.blogmeta)
    requires !Php.IsEmptySelection(value) && h != 0 && h in SelectedHubs(value.entries)
    ensures GetSpokeSitesForHub(UpdatedOptionUseAsHubs(st, UseAsHubsOption, oldValue, value).blogmeta, h) == [st.current]
  {
    var st' := UpdatedOptionUseAsHubs(st, UseAsHubsOption, oldValue, value);
    var r := st'.blogmeta;
    assert UniqueKeys(r);
    AtMostOneSpokePerHub(r, h);
    var spokes := GetSpokeSitesForHub(r, h);
    assert st.current in spokes;
    SingletonHolds(spokes, st.current);
  }
}

=== FILE: php.dfy ===
/** The few PHP values and string functions the plugin's hooks depend on. */
module Php {
  import opened Wrappers

  /** One `key => value` pair of a submitted option array. The value is the
      selected hub's id after `absint`; the empty "please choose" entry of the
      multi-select, the empty string, becomes 0. */
  datatype Entry = Entry(key: int, value: nat)

  /** A PHP value as the hooks receive it: the `$creating` flag of
      `rest_after_insert_wp_block` and the `$value` of `updated_option`.
      A numeric string is represented by the integer it denotes. */
  datatype Value = Null | Bool(b: bool) | Int(i: int) | List(entries: seq<Entry>)

  /** `absint`: the absolute value of `intval`. `intval` of an array is 1
      when it has elements and 0 otherwise. */
  function Absint(v: Value): (n: nat)
    ensures v.Bool? ==> n == (if v.b then 1 else 0)
    ensures v.Int? ==> n == v.i || n == -v.i
    ensures v.Null? ==> n == 0
  {
    match v
    case Null => 0
    case Bool(b) => if b then 1 else 0
    case Int(i) => if i < 0 then -i else i
    case List(entries) => if |entries| == 0 then 0 else 1
  }

  /** `$entries[$key]`: PHP array keys are unique, so the first pair with
      the key is the one the array holds. */
  function Lookup(entries: seq<Entry>, key: int): (r: Option<nat>)
    ensures r.Some? ==> Entry(key, r.value) in entries
    ensures r.None? <==> forall e :: e in entries ==> e.key != key
  {
    if |entries| == 0 then None
    else if entries[0].key == key then Some(entries[0].value)
    else Lookup(entries[1..], key)
  }

  /** The "no hub selected" test both option handlers share:
      `! is_array( $value ) || ! isset( $value[0] ) ||
      ( 1 === count( $value ) && empty( $value[0] ) )`. */
  function IsEmptySelection(v: Value): (r: bool)
    ensures !r ==> v.List? && exists e :: e in v.entries && e.key == 0
    ensures v.List? && |v.entries| == 0 ==> r
    ensures v == List([Entry(0, 0)]) ==> r
    ensures v.List? && (exists e :: e in v.entries && e.key == 0 && e.value != 0) ==> !r
  {
    || !v.List?
    || Lookup(v.entries, 0).None?
    || (|v.entries| == 1 && Lookup(v.entries, 0).value == 0)
  }

  /** The ids an option array holds, placeholders (0) included. */
  function EntryValues(entries: seq<Entry>): set<nat> {
    set e | e in entries :: e.value
  }

  /** `strpos( $haystack, $needle, 0 ) === 0`: the needle occurs at position 0. */
  predicate StartsWith(haystack: string, needle: string) {
    |needle| <= |haystack| && haystack[..|needle|] == needle
  }

  /** How many leading characters of `s` are in `chars`. */
  function LeadingRun(s: string, chars: set<char>): (n: nat)
    ensures n <= |s|
    ensures forall k :: 0 <= k < n ==> s[k] in chars
    ensures n < |s| ==> s[n] !in chars
  {
    if |s| == 0 || s[0] !in chars then 0
    else
      var n := 1 + LeadingRun(s[1..], chars);
      assert forall k :: 1 <= k < n ==> s[k] == s[1..][k - 1];
      n
  }

  /** Where the trailing run of characters in `chars` starts. */
  function TrailingStart(s: string, chars: set<char>): (n: nat)
    ensures n <= |s|
    ensures forall k :: n <= k < |s| ==> s[k] in chars
    ensures n > 0 ==> s[n - 1] !in chars
  {
    if |s| == 0 || s[|s| - 1] !in chars then |s|
    else TrailingStart(s[..|s| - 1], chars)
  }

  /** `ltrim( $s, $chars )`. */
  function TrimLeft(s: string, chars: set<char>): string {
    s[LeadingRun(s, chars)..]
  }

  /** `rtrim( $s, $chars )`. */
  function TrimRight(s: string, chars: set<char>): string {
    s[..TrailingStart(s, chars)]
  }

  /** `trim( $s, $chars )`: both ends. */
  function Trim(s: string, chars: set<char>): (r: string)
    ensures |r| <= |s|
    ensures |r| > 0 ==> r[0] !in chars && r[|r| - 1] !in chars
    ensures (forall k :: 0 <= k < |s| ==> s[k] !in chars) ==> r == s
  {
    var l := TrimLeft(s, chars);
    var e := TrailingStart(l, chars);
    if e > 0 then
      assert l[0] == s[LeadingRun(s, chars)];
      l[..e]
    else l[..e]
  }

  /** `trim` keeps a contiguous middle part of its input whose ends are not
      trimmable, and removes only trimmable characters around it. */
  lemma TrimKeepsMiddle(s: string, chars: set<char>) returns (i: nat, j: nat)
    ensures i <= j <= |s| && Trim(s, chars) == s[i..j]
    ensures forall k :: 0 <= k < i ==> s[k] in chars
    ensures forall k :: j <= k < |s| ==> s[k] in chars
    ensures i < j ==> s[i] !in chars && s[j - 1] !in chars
  {
    i := LeadingRun(s, chars);
    var l := s[i..];
    var e := TrailingStart(l, chars);
    j := i + e;
    assert l[..e] == s[i..j];
    forall k | j <= k < |s| ensures s[k] in chars {
      assert s[k] == l[k - i];
    }
    if i < j {
      assert s[j - 1] == l[e - 1];
    }
  }
}

=== FILE: rest_api.dfy ===
/** The REST side of a hub: the filter that hands the `wp_block` post type
    to the plugin's controller on hub sites, and that controller's
    overrides of the core posts controller. */
module RestApi {
  import opened Wrappers
  import opened Json
  import opened Store
  import Helpers

  /** The key of the post type arguments naming the REST controller. */
  const ControllerKey: string := "rest_controller_class"

  /** The fully qualified class name the filter installs. */
  const ControllerClass: string := "\\SharedReusableBlocks\\SRB_REST_Block_Controller"

  /** `register_post_type_args` at priority 99: on a hub, the block post type
      is served by the plugin's controller; every other post type, and the
      block post type on any other site, keeps its arguments. The filter
      touches no argument other than the controller class. */
  function RegisterPostTypeArgs(args: Json, postType: string, rows: seq<MetaRow>, current: BlogId): (r: Json)
    ensures postType != BlockPostType ==> r == args
    ensures MetaRow(current, HubFlagKey, 1) !in rows ==> r == args
    ensures postType == BlockPostType && MetaRow(current, HubFlagKey, 1) in rows && Assignable(args, [ControllerKey])
            ==> Get(r, [ControllerKey]) == Some(JStr(ControllerClass))
    ensures forall q :: Apart([ControllerKey], q) ==> Get(r, q) == Get(args, q)
  {
    if postType != BlockPostType then args
    else if current !in Helpers.FetchHubSites(rows) then args
    else Set(args, [ControllerKey], JStr(ControllerClass))
  }

  /** Running the filter a second time (another `register_post_type` of the
      same type) leaves the arguments as the first run left them. */
  lemma RegisterPostTypeArgsIdempotent(args: Json, postType: string, rows: seq<MetaRow>, current: BlogId)
    ensures var once := RegisterPostTypeArgs(args, postType, rows, current);
            RegisterPostTypeArgs(once, postType, rows, current) == once
  {
    var once := RegisterPostTypeArgs(args, postType, rows, current);
    if postType == BlockPostType && current in Helpers.FetchHubSites(rows) {
      match args
      case JObj(f) =>
        assert once == JObj(f[ControllerKey := JStr(ControllerClass)]);
        assert once.fields[ControllerKey := JStr(ControllerClass)] == once.fields;
      case JNull =>
        assert once == JObj(map[ControllerKey := JStr(ControllerClass)]);
        assert once.fields[ControllerKey := JStr(ControllerClass)] == once.fields;
      case _ =>
    }
  }

  /** `check_read_permission`: every block is readable, logged in or not,
      whatever its status. */
  function CheckReadPermission(post: Post): (r: bool)
    ensures r
  {
    true
  }

  const TitleRendered: Path := ["title", "rendered"]
  const ContentRendered: Path := ["content", "rendered"]

  /** `filter_response_by_context`, given the response the core controller
      has already filtered: the rendered title and content are removed and
      every other field is kept. */
  function FilterResponseByContext(data: Json): (r: Json)
    ensures Get(r, TitleRendered) == None && Get(r, ContentRendered) == None
    ensures forall q :: Apart(TitleRendered, q) && Apart(ContentRendered, q) ==> Get(r, q) == Get(data, q)
  {
    var noTitle := Unset(data, TitleRendered);
    assert "title" != "content" by { assert "title"[0] != "content"[0]; }
    DifferAt(ContentRendered, TitleRendered, 0);
    Unset(noTitle, ContentRendered)
  }

  /** `unset` of a path where nothing is found changes nothing. */
  lemma {:induction false} UnsetAbsent(j: Json, path: Path)
    requires |path| > 0 && Get(j, path) == None
    ensures Unset(j, path) == j
    decreases |path|
  {
    match j
    case JObj(f) =>
      if |path| == 1 {
        assert (map k | k in f && k != path[0] :: f[k]) == f;
      } else if path[0] in f {
        UnsetAbsent(f[path[0]], path[1..]);
        assert f[path[0] := f[path[0]]] == f;
      }
    case _ =>
  }

  /** Filtering an already filtered response changes nothing. */
  lemma FilterResponseIdempotent(data: Json)
    ensures FilterResponseByContext(FilterResponseByContext(data)) == FilterResponseByContext(data)
  {
    var once := FilterResponseByContext(data);
    UnsetAbsent(once, TitleRendered);
    UnsetAbsent(once, ContentRendered);
  }

  const TitleRawContext: Path := ["properties", "title", "properties", "raw", "context"]
  const ContentRawContext: Path := ["properties", "content", "properties", "raw", "context"]
  const TitleRenderedSchema: Path := ["properties", "title", "properties", "rendered"]
  const ContentRenderedSchema: Path := ["properties", "content", "properties", "rendered"]

  /** The contexts in which the raw title and content are exposed. */
  const AllContexts: Json := JList([JStr("view"), JStr("edit")])

  /** `get_item_schema`, given the core controller's schema: the raw title
      and content become visible in the view and edit contexts, the rendered
      title and content leave the schema, and nothing else changes. */
  function GetItemSchema(parent: Json): (r: Json)
    ensures Assignable(parent, TitleRawContext) ==> Get(r, TitleRawContext) == Some(AllContexts)
    ensures Assignable(parent, ContentRawContext) ==> Get(r, ContentRawContext) == Some(AllContexts)
    ensures Get(r, TitleRenderedSchema) == None && Get(r, ContentRenderedSchema) == None
    ensures forall q :: SchemaUntouched(q) ==> Get(r, q) == Get(parent, q)
  {
    assert "title" != "content" by { assert "title"[0] != "content"[0]; }
    DifferAt(TitleRawContext, ContentRawContext, 1);
    DifferAt(TitleRenderedSchema, TitleRawContext, 3);
    DifferAt(TitleRenderedSchema, ContentRawContext, 1);
    DifferAt(ContentRenderedSchema, TitleRawContext, 1);
    DifferAt(ContentRenderedSchema, ContentRawContext, 3);
    DifferAt(ContentRenderedSchema, TitleRenderedSchema, 1);
    var withTitle := Set(parent, TitleRawContext, AllContexts);
    var withContent := Set(withTitle, ContentRawContext, AllContexts);
    var noTitle := Unset(withContent, TitleRenderedSchema);
    Unset(noTitle, ContentRenderedSchema)
  }

  /** Paths with different keys at the same depth are apart. */
  lemma DifferAt(p: Path, q: Path, i: nat)
    requires i < |p| && i < |q| && p[i] != q[i]
    ensures Apart(p, q)
  {
  }

  /** A schema path that none of the four edits reaches. */
  predicate SchemaUntouched(q: Path) {
    && Apart(TitleRawContext, q) && Apart(ContentRawContext, q)
    && Apart(TitleRenderedSchema, q) && Apart(ContentRenderedSchema, q)
  }
}

=== FILE: seqs.dfy ===
/** Sequence helpers shared by the table operations. */
module Seqs {

  /** Keeps, in order, the elements of `s` that satisfy `keep`; each kept
      element keeps its multiplicity and every other one disappears. */
  function Filter<T(!new)>(s: seq<T>, keep: T -> bool): (r: seq<T>)
    ensures |r| <= |s|
    ensures forall x :: multiset(r)[x] == if keep(x) then multiset(s)[x] else 0
    ensures forall x :: x in r <==> x in s && keep(x)
  {
    if |s| == 0 then []
    else
      assert s == [s[0]] + s[1..];
      (if keep(s[0]) then [s[0]] else []) + Filter(s[1..], keep)
  }

  /** The elements of `s`, as a set. */
  function Elems<T>(s: seq<T>): set<T> {
    set x | x in s
  }

  /** No element occurs twice. */
  predicate Distinct<T(==)>(s: seq<T>) {
    forall i, j :: 0 <= i < j < |s| ==> s[i] != s[j]
  }

  /** Dropping the head of a duplicate-free sequence leaves a
      duplicate-free sequence without that head, and membership splits
      between the head and the rest. */
  lemma DistinctTail<T>(s: seq<T>)
    requires |s| > 0 && Distinct(s)
    ensures Distinct(s[1..]) && s[0] !in s[1..]
    ensures forall x :: x in s <==> x == s[0] || x in s[1..]
  {
    forall i, j | 0 <= i < j < |s[1..]| ensures s[1..][i] != s[1..][j] {
      assert s[1..][i] == s[i + 1] && s[1..][j] == s[j + 1];
    }
    forall i | 0 <= i < |s[1..]| ensures s[1..][i] != s[0] {
      assert s[1..][i] == s[i + 1];
    }
    assert s == [s[0]] + s[1..];
  }

  /** Being a prefix is transitive. */
  lemma PrefixTrans<T>(a: seq<T>, b: seq<T>, c: seq<T>)
    requires a <= b && b <= c
    ensures a <= c
  {
    assert c[..|b|] == b;
    assert c[..|a|] == b[..|a|];
  }

  /** A subset is no larger than its superset. */
  lemma SubsetCard<T>(a: set<T>, b: set<T>)
    requires a <= b
    ensures |a| <= |b|
  {
    assert b == a + (b - a);
  }
}

=== FILE: store.dfy ===
/** The multisite network as one immutable value: the `blogmeta` table, each
    site's posts and `postmeta` table, and the blog context that
    `switch_to_blog` / `restore_current_blog` maintain. The WordPress
    primitives the plugin calls are the table operations below. */
module Store {
  import opened Wrappers
  import Seqs

  type BlogId = nat
  type PostId = nat

  /** blogmeta key marking a hub site (value 1). */
  const HubFlagKey: string := "srb_site_is_hub"
  /** blogmeta key linking a hub (the row's blog) to a spoke (the row's value). */
  const HubForSiteKey: string := "is_a_hub_for_site"
  /** postmeta key holding the hub a replica came from. */
  const FromSiteKey: string := "srb_from_site"
  /** postmeta key holding the post id, on the hub, a replica came from. */
  const FromPostKey: string := "srb_from_post"
  /** The post type of reusable blocks. */
  const BlockPostType: string := "wp_block"

  /** A row of the network-wide `blogmeta` table. */
  datatype MetaRow = MetaRow(blog: BlogId, key: string, value: nat)

  /** The post columns the plugin reads or writes. */
  datatype Post = Post(title: string, content: string, name: string, status: string, postType: string)

  /** A row of one site's `postmeta` table. */
  datatype PostMeta = PostMeta(post: PostId, key: string, value: nat)

  /** One site's tables; `nextId` is the next auto-increment post id. */
  datatype Site = Site(posts: map<PostId, Post>, postmeta: seq<PostMeta>, nextId: PostId)

  /** The whole network. `switched` is WordPress's `_wp_switched_stack`. */
  datatype State = State(blogmeta: seq<MetaRow>, sites: map<BlogId, Site>, current: BlogId, switched: seq<BlogId>)

  /** A site nobody has written to yet. */
  const EmptySite: Site := Site(map[], [], 1)

  /** Post ids are positive and below the auto-increment counter, and every
      postmeta row belongs to an id already handed out. */
  predicate ValidSite(site: Site) {
    && site.nextId >= 1
    && (forall p :: p in site.posts ==> 0 < p < site.nextId)
    && (forall i :: 0 <= i < |site.postmeta| ==> site.postmeta[i].post < site.nextId)
  }

  predicate Valid(st: State) {
    forall b :: b in st.sites ==> ValidSite(st.sites[b])
  }

  /** The tables of blog `b`; a blog with no tables yet reads as empty. */
  function SiteAt(st: State, b: BlogId): Site {
    if b in st.sites then st.sites[b] else EmptySite
  }

  function WithSite(st: State, b: BlogId, site: Site): State {
    st.(sites := st.sites[b := site])
  }

  /** `r` differs from `st` at most in the tables of blog `b`: the
      blogmeta, the blog context and every other site are as they were. */
  ghost predicate OnlySiteChanged(st: State, r: State, b: BlogId) {
    && r.blogmeta == st.blogmeta && r.current == st.current && r.switched == st.switched
    && forall b' :: b' != b ==> SiteAt(r, b') == SiteAt(st, b')
  }

  lemma SiteAtValid(st: State, b: BlogId)
    requires Valid(st)
    ensures ValidSite(SiteAt(st, b))
  {
  }

  // ---------------------------------------------------------------------
  // blogmeta primitives

  /** The (blog, key) pair WordPress addresses site meta by. */
  predicate HasKey(row: MetaRow, blog: BlogId, key: string) {
    row.blog == blog && row.key == key
  }

  /** No two blogmeta rows share a (blog, key) pair. */
  predicate UniqueKeys(rows: seq<MetaRow>) {
    forall i, j :: 0 <= i < j < |rows| ==> rows[i].blog != rows[j].blog || rows[i].key != rows[j].key
  }

  /** Sets the value of every (blog, key) row, leaving the others alone. */
  function SetValues(rows: seq<MetaRow>, blog: BlogId, key: string, value: nat): (r: seq<MetaRow>)
    ensures |r| == |rows|
    ensures forall i :: 0 <= i < |rows| ==> r[i].blog == rows[i].blog && r[i].key == rows[i].key
    ensures forall i :: 0 <= i < |rows| && HasKey(rows[i], blog, key) ==> r[i] == MetaRow(blog, key, value)
    ensures forall i :: 0 <= i < |rows| && !HasKey(rows[i], blog, key) ==> r[i] == rows[i]
  {
    if |rows| == 0 then []
    else
      [if HasKey(rows[0], blog, key) then rows[0].(value := value) else rows[0]]
      + SetValues(rows[1..], blog, key, value)
  }

  /** `update_site_meta( $blog, $key, $value )`, i.e. `update_metadata`: it
      is an update-or-add on the (blog, key) pair, not an append. When rows
      for the pair exist, all of them take the new value; otherwise one row
      is added. A blog id of 0 is refused and changes nothing. */
  function UpdateSiteMeta(rows: seq<MetaRow>, blog: BlogId, key: string, value: nat): (r: seq<MetaRow>)
    ensures blog == 0 ==> r == rows
    ensures blog != 0 ==> MetaRow(blog, key, value) in r
    ensures blog != 0 ==> forall row :: row in r && HasKey(row, blog, key) ==> row.value == value
    ensures forall row :: !HasKey(row, blog, key) ==> multiset(r)[row] == multiset(rows)[row]
    ensures UniqueKeys(rows) ==> UniqueKeys(r)
  {
    if blog == 0 then rows
    else if exists i :: 0 <= i < |rows| && HasKey(rows[i], blog, key) then
      var r := SetValues(rows, blog, key, value);
      SetValuesFrame(rows, blog, key, value);
      r
    else
      var r := rows + [MetaRow(blog, key, value)];
      assert r[|rows|] == MetaRow(blog, key, value);
      r
  }

  /** Rows off the (blog, key) pair keep their multiplicity under SetValues. */
  lemma {:induction false} SetValuesFrame(rows: seq<MetaRow>, blog: BlogId, key: string, value: nat)
    ensures forall row :: !HasKey(row, blog, key) ==>
      multiset(SetValues(rows, blog, key, value))[row] == multiset(rows)[row]
    decreases |rows|
  {
    if |rows| > 0 {
      var r := SetValues(rows, blog, key, value);
      SetValuesFrame(rows[1..], blog, key, value);
      assert rows == [rows[0]] + rows[1..];
      assert r == [r[0]] + SetValues(rows[1..], blog, key, value);
    }
  }

  /** `delete_site_meta( $blog, $key )`: removes every (blog, key) row. A
      blog id of 0 is refused and changes nothing. */
  function DeleteSiteMeta(rows: seq<MetaRow>, blog: BlogId, key: string): (r: seq<MetaRow>)
    ensures blog == 0 ==> r == rows
    ensures blog != 0 ==> forall row :: row in r ==> !HasKey(row, blog, key)
    ensures forall row :: !HasKey(row, blog, key) ==> multiset(r)[row] == multiset(rows)[row]
    ensures UniqueKeys(rows) ==> UniqueKeys(r)
  {
    if blog == 0 then rows
    else
      var r := Seqs.Filter(rows, (row: MetaRow) => !HasKey(row, blog, key));
      FilterKeepsUniqueKeys(rows, (row: MetaRow) => !HasKey(row, blog, key));
      r
  }

  /** Deleting rows never makes two rows share a (blog, key) pair. */
  lemma {:induction false} FilterKeepsUniqueKeys(rows: seq<MetaRow>, keep: MetaRow -> bool)
    ensures UniqueKeys(rows) ==> UniqueKeys(Seqs.Filter(rows, keep))
    decreases |rows|
  {
    if |rows| > 0 && UniqueKeys(rows) {
      var tail := rows[1..];
      UniqueKeysSplit(rows);
      FilterKeepsUniqueKeys(tail, keep);
      var ft := Seqs.Filter(tail, keep);
      assert rows == [rows[0]] + tail;
      if keep(rows[0]) {
        assert Seqs.Filter(rows, keep) == [rows[0]] + ft;
        forall x | x in ft ensures !SameKey(rows[0], x) {
          assert x in tail;
        }
        UniqueKeysCons(rows[0], ft);
      } else {
        assert Seqs.Filter(rows, keep) == ft;
      }
    }
  }

  predicate SameKey(a: MetaRow, b: MetaRow) {
    a.blog == b.blog && a.key == b.key
  }

  /** The tail of a key-unique table is key-unique, and its head's pair
      occurs nowhere in it. */
  lemma UniqueKeysSplit(rows: seq<MetaRow>)
    requires |rows| > 0 && UniqueKeys(rows)
    ensures UniqueKeys(rows[1..])
    ensures forall x :: x in rows[1..] ==> !SameKey(rows[0], x)
  {
    var tail := rows[1..];
    forall i, j | 0 <= i < j < |tail| ensures tail[i].blog != tail[j].blog || tail[i].key != tail[j].key {
      assert tail[i] == rows[i + 1] && tail[j] == rows[j + 1];
    }
    forall x | x in tail ensures !SameKey(rows[0], x) {
      var k :| 0 <= k < |tail| && tail[k] == x;
      assert rows[k + 1] == x;
    }
  }

  /** Prepending a row whose pair is new keeps a table key-unique. */
  lemma UniqueKeysCons(head: MetaRow, rows: seq<MetaRow>)
    requires UniqueKeys(rows)
    requires forall x :: x in rows ==> !SameKey(head, x)
    ensures UniqueKeys([head] + rows)
  {
    var r := [head] + rows;
    forall i, j | 0 <= i < j < |r| ensures r[i].blog != r[j].blog || r[i].key != r[j].key {
      assert r[j] == rows[j - 1];
      if i > 0 {
        assert r[i] == rows[i - 1];
      } else {
        assert r[j] in rows;
      }
    }
  }

  // ---------------------------------------------------------------------
  // post primitives

  /** `wp_insert_post`: stores the post under the next auto-increment id
      and returns that id. */
  function InsertPost(site: Site, post: Post): (r: (Site, PostId))
    ensures ValidSite(site) ==> r.1 !in site.posts && r.1 > 0
    ensures r.0.posts == site.posts[r.1 := post]
    ensures r.0.postmeta == site.postmeta
    ensures r.0.nextId == r.1 + 1 && r.1 == site.nextId
  {
    (site.(posts := site.posts[site.nextId := post], nextId := site.nextId + 1), site.nextId)
  }

  /** `add_post_meta`: appends a row; a post id of 0 is refused. */
  function AddPostMeta(site: Site, post: PostId, key: string, value: nat): (r: Site)
    ensures post != 0 ==> r.postmeta == site.postmeta + [PostMeta(post, key, value)]
    ensures post == 0 ==> r == site
    ensures r.posts == site.posts && r.nextId == site.nextId
  {
    if post == 0 then site
    else site.(postmeta := site.postmeta + [PostMeta(post, key, value)])
  }

  /** `wp_update_post` with an id, a title, content and a name: only those
      three columns change. An id with no post is left alone. */
  function UpdatePost(site: Site, id: PostId, title: string, content: string, name: string): (r: Site)
    ensures r.posts.Keys == site.posts.Keys
    ensures r.postmeta == site.postmeta && r.nextId == site.nextId
    ensures forall p :: p in site.posts && p != id ==> r.posts[p] == site.posts[p]
    ensures id in site.posts ==>
      && r.posts[id].title == title && r.posts[id].content == content && r.posts[id].name == name
      && r.posts[id].status == site.posts[id].status && r.posts[id].postType == site.posts[id].postType
  {
    if id in site.posts then
      site.(posts := site.posts[id := site.posts[id].(title := title, content := content, name := name)])
    else site
  }

  // ---------------------------------------------------------------------
  // blog context

  /** `switch_to_blog( $b )`: pushes the current blog and makes `b`
      current; an empty id (0) switches to the current blog itself. */
  function SwitchToBlog(st: State, b: BlogId): (r: State)
    ensures r.switched == st.switched + [st.current]
    ensures r.current == (if b == 0 then st.current else b)
    ensures r.blogmeta == st.blogmeta && r.sites == st.sites
  {
    st.(current := if b == 0 then st.current else b, switched := st.switched + [st.current])
  }

  /** `restore_current_blog()`: pops the stack back into the current blog;
      with an empty stack it does nothing. */
  function RestoreCurrentBlog(st: State): (r: State)
    ensures |st.switched| > 0 ==>
      r.current == st.switched[|st.switched| - 1] && r.switched == st.switched[..|st.switched| - 1]
    ensures |st.switched| == 0 ==> r == st
    ensures r.blogmeta == st.blogmeta && r.sites == st.sites
  {
    if |st.switched| == 0 then st
    else st.(current := st.switched[|st.switched| - 1], switched := st.switched[..|st.switched| - 1])
  }

  /** A switch followed by a restore gives back the blog context it
      started from, whatever was written to the tables in between. */
  lemma SwitchRestoreBalanced(st: State, b: BlogId, blogmeta: seq<MetaRow>, sites: map<BlogId, Site>)
    ensures RestoreCurrentBlog(SwitchToBlog(st, b).(blogmeta := blogmeta, sites := sites))
         == st.(blogmeta := blogmeta, sites := sites)
  {
    var s := SwitchToBlog(st, b).(blogmeta := blogmeta, sites := sites);
    assert s.switched[..|s.switched| - 1] == st.switched;
  }

  // ---------------------------------------------------------------------
  // provenance

  /** The posts of `site` that are replicas of post `origin` on hub `hub`:
      they carry both `srb_from_site = hub` and `srb_from_post = origin`. */
  function ReplicaIds(site: Site, hub: BlogId, origin: PostId): set<PostId> {
    set p | p in site.posts && PostMeta(p, FromSiteKey, hub) in site.postmeta
                            && PostMeta(p, FromPostKey, origin) in site.postmeta
  }

  /** Provenance rows are only ever appended: a replica stays one as long
      as its post is kept. */
  lemma ReplicaPersists(before: Site, after: Site, p: PostId, hub: BlogId, origin: PostId)
    requires p in ReplicaIds(before, hub, origin) && p in after.posts
    requires before.postmeta <= after.postmeta
    ensures p in ReplicaIds(after, hub, origin)
  {
    var i :| 0 <= i < |before.postmeta| && before.postmeta[i] == PostMeta(p, FromSiteKey, hub);
    var j :| 0 <= j < |before.postmeta| && before.postmeta[j] == PostMeta(p, FromPostKey, origin);
    assert after.postmeta[i] == before.postmeta[i] && after.postmeta[j] == before.postmeta[j];
  }
}

=== FILE: wrappers.dfy ===
/** The optional value the model uses for lookups that may find nothing. */
module Wrappers {

  datatype Option<+T> = None | Some(value: T)
}
